=== FILE: README.md ===
# fastapi_auth_template: the CRUD core in Dafny

This project models the data layer of a FastAPI authentication template. That layer is:

- a generic SQLAlchemy repository (insert, one-or-none lookup, paginated, searched and sorted reads, patch update, delete, counts);
- the generic service on top of it, in its current and its older variant;
- the user specialisation (record shape, schemas, create/update, admin list query);
- registration and login.

The database is an abstract table. It holds rows in insertion order plus a logical clock (`Repository.Table`). Each row maps column names to values, and a missing column reads as NULL. The store's constraints are given as data (`Repository.TableSchema`):

- a unique primary key;
- UNIQUE columns;
- NOT NULL columns;
- column defaults.

A write that would break a constraint is refused with `IntegrityViolation`. A refused write commits nothing: every committing operation returns the new table inside `Ok`, and `Err` carries no table.

Module layout follows the source:

- `Outcomes`: option, error and result types.
- `Values`: column values, ASCII case-insensitive substring search for `ilike('%v%')`, and the sort order of values (NULL last).
- `Sorting`: ordering rows by a column.
- `Repository`: `src/base/repository.py`.
- `Service` and `LegacyService`: `src/base/service.py` and `src/base_service.py`.
- `Users`: `src/modules/users/*`, `src/users/schemas.py` and both query composers.
- `LegacyUsers`: `src/users/service.py`.
- `Auth`: `src/modules/auth/services/auth_service.py`.

Some things outside the model become parameters:

- the password hash (`Users.Hasher`);
- token issuance (`Auth.Issuer`);
- the output schema the generic service validates into, as a set of exposed columns (`shape`).

`created_at` and `updated_at` are clock ticks. A generated primary key is one more than the largest integer key in the table.

The two user-list composers (`get_stmt_by_query` and the older `get_users_stmt_by_query`) have identical bodies, so `Users.UsersStmt` models both. Both user services insert only `email` and `hashed_password`. So a user an admin creates with `is_admin = true` is stored as a non-admin; the model keeps this behaviour (`Users.AdminCreateStoresNoAdmin`).

The docstring of `AuthService.register` names `UserAlreadyExistsException`. The code raises `ConflictException` from `UserService.create`, and the model follows the code.

## Model

| member | source | states |
|---|---|---|
| Values.ContainsIffOccurs | src/base/repository.py:170-174 | the substring test behind `ilike('%v%')` holds exactly when some window of the text equals the pattern, in both directions |
| Values.ValueLeTotal | src/base/repository.py:208-214 | any two column values are comparable, so ordering by a column is defined for every table |
| Sorting.SortBy | src/base/repository.py:208-216 | `order_by` returns the same rows with the same multiplicities, each row allowed before its successor in the requested direction |
| Repository.CreateData | src/base/repository.py:50-53 | a dict is inserted as given; a schema contributes exactly its explicitly set fields with their values |
| Repository.UpdateData | src/base/repository.py:301-304 | a dict is written as given; a schema contributes exactly its set fields whose value is not None |
| Repository.AppendConsistent | src/modules/users/models.py:18-26 | inserting keeps the table within its constraints iff the new row is complete and shares no key or unique value with a stored row |
| Repository.ReplaceConsistent | src/base/repository.py:306-311 | replacing one row keeps the table within its constraints iff the new row is complete and clashes with no other row |
| Repository.PinnedSelectAtMostOne | src/modules/users/models.py:18-26 | on a table within its constraints, a criterion that pins the primary key or a non-NULL unique value matches at most one row |
| Repository.FreshId | src/modules/users/models.py:18-22 | a generated primary key is non-NULL and differs from every stored key |
| Repository.Create | src/base/repository.py:50-58 | insert succeeds iff the table with the new row appended stays within its constraints, then appends exactly one row and ticks the clock; explicitly set fields are stored, unset fields take the defaults, a generated id is fresh, `created_at` and `updated_at` are the insert time unless given, and the row has no column beyond the data, the defaults, the id and the two timestamps; otherwise `IntegrityViolation` |
| Repository.GetOneOrNone | src/base/repository.py:103-106 | none iff no row matches; a returned row is stored, matches and is the only match; two or more matches fail with `MultipleResults` |
| Repository.Page | src/base/repository.py:245 | a negative offset or limit is refused; otherwise the page is the slice starting at `min(offset, count)` with length `min(limit, max(0, count - offset))`, and an absent clause skips nothing or keeps everything |
| Repository.GetAll | src/base/repository.py:131-141 | refused iff `offset` or `limit` is negative; otherwise the page has length `min(limit, max(0, K - offset))` for the K matching rows, every row returned is stored and matches, and no match gives an empty list, not an error |
| Repository.GetAllIsSlice | src/base/repository.py:132-141 | the page is the run of matching rows that starts after the first `offset` of them, in table order |
| Repository.GetAllReturnsEveryMatch | src/base/repository.py:132-141 | with offset 0 and a limit covering the table, every stored row that matches is returned |
| Repository.GetAllILike | src/base/repository.py:167-179 | refused iff `offset` or `limit` is negative; every row returned meets the equality filters and, for a non-empty search map, contains the searched value of at least one listed field case-insensitively; the length is the page size over `count_all_ilike` |
| Repository.SearchMatches | src/base/repository.py:167-174 | a row meets the search criterion iff it meets the filters and, when the search map is non-empty, some listed text column contains its searched value case-insensitively |
| Repository.GetAllILikeIsSlice | src/base/repository.py:167-179 | the page is the run of qualifying rows that starts after the first `offset` of them, in table order |
| Repository.GetAllILikeReturnsEveryMatch | src/base/repository.py:167-179 | with offset 0 and a limit covering the table, every stored row that meets the filters and the search is returned |
| Repository.GetAllSorted | src/base/repository.py:208-219 | no row returned has a NULL sort field, each matches the filters, the result is ordered in the requested direction and holds `min(limit, K)` rows for the K qualifying rows (all K without a limit); without a limit it is a permutation of all of them |
| Repository.GetAllSortedKeepsTop | src/base/repository.py:208-216 | the rows kept are drawn from the qualifying rows with their multiplicities, and each may come before every qualifying row the limit leaves out |
| Repository.RunPermutes | src/base/repository.py:245-248 | an executed statement returns exactly the rows its WHERE clause selects, with their multiplicities |
| Repository.RunSorted | src/modules/users/repository.py:56-60 | a statement with an ORDER BY column returns its rows ordered on that column in its direction |
| Repository.GetAllFromStmt | src/base/repository.py:245-248 | the page of the statement's rows: refused iff an offset or limit is negative, of length given by the count of the statement, and equal to the slice of the ordered rows at the page start |
| Repository.PatchAll | src/base/repository.py:306-308 | every matched row gets the patch and a fresh `updated_at` with all other columns kept; every unmatched row is unchanged |
| Repository.Update | src/base/repository.py:301-311 | update succeeds iff the patched table stays within its constraints and exactly one row matched; then only matched rows change, and the returned row is the patched match; else `IntegrityViolation`, `NoResult` (no match) or `MultipleResults` |
| Repository.FilterKeepsConsistent | src/base/repository.py:352-353 | removing any set of rows from a table within its constraints leaves it within them |
| Repository.Delete | src/base/repository.py:352-353 | removes exactly the matching rows, keeps all others, and reports no error when nothing matches |
| Repository.DeleteKeepsOrder | src/base/repository.py:352-353 | the rows left after a delete keep their table order |
| Repository.Count | src/base/repository.py:375-386 | a natural number no larger than the table, zero iff no row matches |
| Repository.CountIsMatchCount | src/base/repository.py:375-386 | `count` equals the number of table positions whose row matches the filters |
| Repository.CountAllILike | src/base/repository.py:409-420 | counts under the same predicate as `get_all_ilike`; zero iff no row qualifies |
| Repository.CountAllILikeIsMatchCount | src/base/repository.py:409-420 | `count_all_ilike` equals the number of table positions whose row meets the filters and the search |
| Repository.CountSubquery | src/base/repository.py:440-447 | the number of rows the statement selects, zero iff none does |
| Service.Create | src/base/service.py:83-96 | fails with `Conflict` iff the insert would break a constraint, committing nothing; otherwise appends one row, keeps the table consistent and returns the new row in the output shape |
| Service.GetById | src/base/service.py:120-126 | `NotFound` iff no row has the id; otherwise the output is the projection of a row with that id |
| Service.GetByIdOnConsistent | src/base/service.py:119-126 | on a table within its constraints, an existing id is always found and the only failure is `NotFound` |
| Service.GetByIdOfRow | src/base/service.py:119-126 | on a table within its constraints, looking up any stored row's id returns that row in the output shape |
| Service.CreateThenGetById | src/base/service.py:83-126 | after a create, looking up the new row's id returns exactly what create returned |
| Service.GetAll | src/base/service.py:149-177 | negative paging fails; an empty page fails with `NotFound`, even past a non-empty result; otherwise `count` is the unpaginated match count, `data` holds one row per page position, and `asc` keeps its schema default true |
| Service.GetAllInOrder | src/base/service.py:149-177 | each listed row is the projection of the statement's row at the page start plus its position, so the list keeps the statement's order |
| Service.Update | src/base/service.py:203-219 | an unknown id fails with `NotFound` before any write; a success changes only the row with that id, patched as the repository update says, and keeps the table consistent; `Conflict` only when the patch breaks a constraint |
| Service.UpdateOnConsistent | src/base/service.py:206-216 | for an existing id on a consistent table, update fails exactly when the patched table would break a constraint, and then with `Conflict` |
| Service.Delete | src/base/service.py:238-247 | an unknown id fails with `NotFound`, and the only other failure is `MultipleResults`; otherwise exactly the rows with that id are removed, as many as carried it, the rest kept in table order, and the clock is unchanged |
| Service.DeleteOnConsistent | src/base/service.py:238-247 | on a consistent table, delete succeeds exactly when a row has the id |
| Service.DeleteThenGetById | src/base/service.py:238-247 | after a delete, looking up the deleted id fails with `NotFound` |
| Service.DeleteKeepsConsistent | src/base/service.py:238-247 | delete keeps a consistent table consistent |
| LegacyService.Create | src/base_service.py:89-101 | fails iff the insert would break a constraint, on the type-variable error path; otherwise as the current create |
| LegacyService.GetById | src/base_service.py:124-131 | fails on the type-variable error path iff no row has the id; in every case it is the current lookup with `NotFound` replaced by `Fault` |
| LegacyService.GetAll | src/base_service.py:154-176 | an empty page fails; otherwise `count` is the unpaginated count and `data` are the raw page rows |
| LegacyService.Update | src/base_service.py:202-218 | a missing id fails before any write; in every case it is the current update with `NotFound` and `Conflict` replaced by `Fault` |
| LegacyService.UpdateOnConsistent | src/base_service.py:202-218 | for an existing id on a consistent table, the older update fails exactly when the patched table would break a constraint, and then with `Fault` |
| LegacyService.Delete | src/base_service.py:238-246 | a missing id fails with `Fault`, and the only other failure is `MultipleResults`; in every case it is the current delete with `NotFound` replaced by `Fault` |
| LegacyService.DeleteOnConsistent | src/base_service.py:238-246 | on a consistent table, the older delete succeeds exactly when a row has the id |
| Users.HashNeverExposed | src/users/schemas.py:14-22 | neither the public nor the admin output shape contains `hashed_password`, and the admin shape extends the public one |
| Users.CreateRecord | src/modules/users/service.py:57-61 | the insert carries exactly the email and the hash of the password, with no `is_admin` |
| Users.UpdateRecord | src/modules/users/service.py:104-118 | the patch contains the email iff one is given, the hash iff a non-empty password is given, and `is_admin` iff the input is the admin schema, with those values and nothing else |
| Users.ConsistentEmailsUnique | src/modules/users/models.py:23-26 | a users table within its constraints has no two users with the same email |
| Users.CreateAdmission | src/modules/users/models.py:18-33 | a new user row is complete, and on a consistent table it can be inserted iff its email is not taken |
| Users.Create | src/modules/users/service.py:55-72 | on a consistent table, create fails with `Conflict` iff the email is taken; a success appends one user with that email, the password's hash, `is_admin` false, both timestamps at the insert time and a fresh id, and returns it in the admin shape |
| Users.AdminCreateStoresNoAdmin | src/modules/users/service.py:58-61 | an admin request to create an administrator yields a user whose `is_admin` is false |
| Users.CreateKeepsPasswordsHashed | src/modules/users/service.py:57-61 | if every stored password is a hash, it still is after a create |
| Users.PatchAdmission | src/modules/users/service.py:109-124 | on a consistent table, the patched users table is consistent iff the update does not give the user an email another user has |
| Users.Update | src/modules/users/service.py:101-126 | an unknown id fails with `NotFound`; a success changes only that user: the email if given, the hash if a non-empty password is given, `is_admin` only for admin input, `updated_at` refreshed, id and `created_at` kept; no row's id changes |
| Users.UpdateConflictIff | src/modules/users/service.py:109-124 | for an existing user on a consistent table, update fails exactly when it would take another user's email, and then with `Conflict` |
| Users.UpdateKeepsPasswordsHashed | src/modules/users/service.py:104-115 | if every stored password is a hash, it still is after an update |
| Users.ParseUsersQuery | src/users/schemas.py:126-153 | parameters are accepted iff every key is a schema field and every value has its field's type; absent fields take their defaults, given values are kept |
| Users.ParseEmptyIsDefault | src/core/base/schemas.py:11-18 | no parameters give offset 0, limit 100, no filters and `asc` false |
| Users.ParseQueryParams | src/users/schemas.py:132-150 | parsing the parameters that spell out a query gives that query back |
| Users.UsersStmt | src/modules/users/repository.py:43-62 | a user is selected iff a non-empty email filter occurs case-insensitively in the user's email and a given `is_admin` equals the user's flag; the order is `created_at`, ascending iff `asc` |
| Users.UsersStmtSelects | src/modules/users/repository.py:46-54 | the composed statement selects exactly the reference selection of users, in table order |
| Users.NoFiltersSelectAll | src/users/repositories/user_repository.py:42-53 | with no email, or an empty one, and no `is_admin` filter, every user is selected |
| Users.UsersStmtIgnoresIdAndPaging | src/users/repositories/user_repository.py:42-61 | the composed statement does not depend on the query's `id`, `offset` or `limit` |
| Users.GetAll | src/base/service.py:149-177 | the inherited `get_all` run on the users composer: it counts the selected users, pages them ordered by `created_at` in the requested direction, and projects each to the admin shape; an empty page fails with `NotFound` |
| LegacyUsers.Create | src/users/service.py:53-70 | on a consistent table, create fails with `UserAlreadyExists` iff the email is taken; a success stores the email, the hash and `is_admin` false |
| LegacyUsers.Update | src/users/service.py:97-122 | for every input, the current user update with `NotFound` turned into `Fault` (the older lookup's failure) and `Conflict` turned into `UserAlreadyExists`; a success is the current update, patching only the user with that id |
| LegacyUsers.UpdateConflictIff | src/users/service.py:105-120 | for an existing user on a consistent table, the older update fails exactly when it would take another user's email, with `UserAlreadyExists` |
| Auth.Register | src/modules/auth/services/auth_service.py:41-46 | on a consistent table, registering fails with `Conflict` iff the email is taken, issuing nothing; otherwise one user with these credentials is added and the tokens are issued for its id |
| Auth.Login | src/modules/auth/services/auth_service.py:72-87 | `NotFound` iff no user has both the email and the hash of the password; a success returns tokens for the id of such a user |
| Auth.LoginOnConsistent | src/modules/auth/services/auth_service.py:75-82 | on a consistent table, login fails only with `NotFound`, because at most one user has a given email |
| Auth.SameCredentialsSameRow | src/modules/users/models.py:23-26 | in a consistent users table two stored users with the same email and hash are the same user |
| Auth.LoginOfRow | src/modules/auth/services/auth_service.py:72-87 | on a consistent table, a stored user's email and password log in as that user, with tokens for its id |
| Auth.RegisterThenLogin | src/modules/auth/services/auth_service.py:41-87 | right after registering, logging in with the same credentials returns the tokens registration issued |

## Left out

- `create_bulk`, `update_bulk` and `get_all_non_scalars_with_pagination_from_stmt` rely on executemany and on tuple results. Neither has a counterpart in a table of single rows, so they are not modelled.
- `ilike`: the pattern is interpolated unescaped, so `%` and `_` in input act as wildcards. Case folding beyond ASCII is defined by the database. The model matches plain substrings with ASCII case folding.
- `get_all_ilike` with a search field that is not a column raises `AttributeError` in the source. The model treats such a field as a NULL column.
- `uuid4` ids are modelled as one more than the largest integer id in the table. Only freshness matters to the properties.
- Real timestamps are replaced by the logical clock. `created_at` and `updated_at` are clock values.
- Async sessions, commit and rollback, concurrency and isolation levels are not modelled. A commit replaces the table atomically; a failure leaves it unchanged.
- SHA-256 and JWT issuance are parameters, left uninterpreted.
- `get_schema_class_by_type` is replaced by a fixed set of output columns.
- The older service calls type variables as exceptions, which is a runtime `TypeError`. Those paths end in `Fault`.
- The older user service imports its repository from `src/users/repository.py`, which is not part of this model. Its `get_all` is not modelled. Its composer is the same as the current one (see `Users.UsersStmt`).
- Query-parameter values are typed values. Pydantic's string coercion and UUID parsing of `id` are not modelled, and `id` is an integer key.
- Repository.GetAllSorted: with a limit, the contract states how many rows are kept and that each may precede every row dropped, but not which of several rows with equal keys are kept. The store leaves the order of equal keys open, so the model's stable sort picks one tie order.
- A SELECT without ORDER BY has no defined row order in SQL. The model returns such rows in table order. This affects `Repository.Run` without an order, and the pages of `get_all` and `get_all_ilike`.
- String ORDER BY follows the database collation. `Values.StrLe` compares code points.
- `ilike` on a column that is not text is a database error in the source. The model treats it as a non-match, because `Holds` requires a string value.
- `search_fields` values may be of any type and are turned into text by string formatting. The model admits only string search values.
- Column names are not checked. A `create` or `update` data key, or a `filter_by` key, that is not a column of the table raises in the source: SQLAlchemy's `CompileError` for unconsumed column names at `src/base/repository.py:50-58` and `:301-311`, and `InvalidRequestError` from `filter_by`. The model has no column list: it stores such a key like any other and reads it as NULL in a filter.
- The older user service (`src/users/service.py`) depends on three things that are not part of this model. `src.base.BaseService` is taken to be the older generic service of `src/base_service.py`, the only one taking its eight type arguments. `src.users.models.UserModel` is taken to be the users table of `src/modules/users/models.py` (`Users.UserTable`). `schemas.UserReadAdminSchema` and `schemas.UserListReadSchema`, which `src/users/schemas.py` does not define, are taken to expose the admin shape (`Users.AdminShape`).
- The older service imports `src/base_repository.py`, which is not part of this model. The model assumes it behaves as `src/base/repository.py`.
- The Python default arguments are not modelled. These are `offset=0` and `limit=100` of `get_all` and `get_all_ilike`, and `ascending=True` and `limit=None` of `get_all_sorted`. Callers of the model pass every argument.
- Sorting.SortBy: ties keep table order, which is one admissible order among those the store may return.
- Service.GetById: on a table that breaks its constraints, a duplicated id gives `MultipleResults`. The contract does not rule this out, because the source does not either.

=== FILE: auth.dfy ===
/** Registration and login. Token issuance (JWT in the source) and the
    password hash are parameters. */
module Auth {
  import opened Outcomes
  import opened Values
  import opened Repository
  import Users

  datatype Tokens = Tokens(access: string, refresh: string)

  /** Issues the access and refresh tokens for a user id. */
  type Issuer = Value -> Tokens

  /** The login lookup: the user's email and the hash of the given password. */
  function LoginKey(email: string, password: string, hash: Users.Hasher): Row {
    map[Users.EmailField := Str(email), Users.HashField := Str(hash(password))]
  }

  /** A stored user has these credentials. */
  predicate HasCredentials(x: Row, email: string, password: string, hash: Users.Hasher) {
    Get(x, Users.EmailField) == Str(email) && Get(x, Users.HashField) == Str(hash(password))
  }

  lemma MatchesLoginKey(email: string, password: string, hash: Users.Hasher)
    ensures forall x :: Matches(Where([], LoginKey(email, password, hash)), x) <==> HasCredentials(x, email, password, hash)
  {
    forall x
      ensures Matches(Where([], LoginKey(email, password, hash)), x) <==> HasCredentials(x, email, password, hash)
    {
      var key := LoginKey(email, password, hash);
      assert Users.EmailField in key && Users.HashField in key;
    }
  }

  /** `AuthService.register`: create the user through the user service, then
      issue tokens for the new id. A taken email fails with `Conflict` and
      issues nothing. */
  function Register(t: Table, email: string, password: string, hash: Users.Hasher, issue: Issuer): (r: Result<Committed<Tokens, Table>>)
    ensures r.Err? ==> r.error == Conflict
    ensures Consistent(Users.UserTable, t.rows) ==> (r.Err? <==> Users.EmailTaken(t, email))
    ensures r.Ok? ==> |r.value.state.rows| == |t.rows| + 1 && r.value.state.rows[..|t.rows|] == t.rows
    ensures r.Ok? ==> Consistent(Users.UserTable, r.value.state.rows)
    ensures r.Ok? ==> var row := r.value.state.rows[|t.rows|];
                      && HasCredentials(row, email, password, hash)
                      && r.value.out == issue(Get(row, IdField))
  {
    match Users.Create(t, Users.UserCreate(email, password), hash)
    case Err(e) => Err(e)
    case Ok(c) => Ok(Committed(issue(Get(c.out, IdField)), c.state))
  }

  /** `AuthService.login`: look the user up by email and password hash;
      no match raises `NotFound`, a match yields tokens for its id. */
  function Login(t: Table, email: string, password: string, hash: Users.Hasher, issue: Issuer): (r: Result<Tokens>)
    ensures r == Err(NotFound) <==> forall x :: x in t.rows ==> !HasCredentials(x, email, password, hash)
    ensures r.Ok? ==> exists x :: x in t.rows && HasCredentials(x, email, password, hash) && r.value == issue(Get(x, IdField))
    ensures r.Err? ==> r.error in {NotFound, MultipleResults}
  {
    MatchesLoginKey(email, password, hash);
    match GetOneOrNone(t, [], LoginKey(email, password, hash))
    case Ok(None) => Err(NotFound)
    case Ok(Some(x)) => Ok(issue(Get(x, IdField)))
    case Err(e) => Err(e)
  }

  /** On a consistent table login can only fail with `NotFound`: emails are
      unique, so the lookup never matches two users. */
  lemma LoginOnConsistent(t: Table, email: string, password: string, hash: Users.Hasher, issue: Issuer)
    requires Consistent(Users.UserTable, t.rows)
    ensures Login(t, email, password, hash, issue).Err? ==> Login(t, email, password, hash, issue) == Err(NotFound)
  {
    MatchesLoginKey(email, password, hash);
    PinnedSelectAtMostOne(Users.UserTable, t.rows, Where([], LoginKey(email, password, hash)), Users.EmailField, Str(email));
  }

  /** On a consistent table a stored user's credentials log in as that user. */
  lemma LoginOfRow(t: Table, k: int, email: string, password: string, hash: Users.Hasher, issue: Issuer)
    requires Consistent(Users.UserTable, t.rows)
    requires 0 <= k < |t.rows| && HasCredentials(t.rows[k], email, password, hash)
    ensures Login(t, email, password, hash, issue) == Ok(issue(Get(t.rows[k], IdField)))
  {
    var r := Login(t, email, password, hash, issue);
    assert r != Err(NotFound) by {
      assert t.rows[k] in t.rows;
    }
    LoginOnConsistent(t, email, password, hash, issue);
    var x :| x in t.rows && HasCredentials(x, email, password, hash) && r.value == issue(Get(x, IdField));
    SameCredentialsSameRow(t.rows, x, t.rows[k], email, password, hash);
  }

  /** In a consistent user table two rows with the same credentials are the
      same row, since the email is unique. */
  lemma SameCredentialsSameRow(rows: seq<Row>, x: Row, y: Row, email: string, password: string, hash: Users.Hasher)
    requires Consistent(Users.UserTable, rows)
    requires x in rows && y in rows
    requires HasCredentials(x, email, password, hash) && HasCredentials(y, email, password, hash)
    ensures x == y
  {
    var i :| 0 <= i < |rows| && rows[i] == x;
    var j :| 0 <= j < |rows| && rows[j] == y;
    if i != j {
      NoClashAt(Users.UserTable, rows, i, j);
    }
  }

  /** A user who has just registered can log in with the same credentials and
      receives the tokens registration issued. */
  lemma RegisterThenLogin(t: Table, email: string, password: string, hash: Users.Hasher, issue: Issuer)
    requires Consistent(Users.UserTable, t.rows)
    requires Register(t, email, password, hash, issue).Ok?
    ensures var c := Register(t, email, password, hash, issue).value;
            Login(c.state, email, password, hash, issue) == Ok(c.out)
  {
    var c := Register(t, email, password, hash, issue).value;
    LoginOfRow(c.state, |t.rows|, email, password, hash, issue);
  }
}

=== FILE: legacy_service.dfy ===
/** The older generic service. Its control flow is the current service's,
    but it raises its conflict and not-found errors by calling the type
    variables it is parametrised with, which fails at run time; those paths
    end in `Fault`. Its `get_all` returns the raw page rows. */
module LegacyService {
  import opened Outcomes
  import opened Values
  import opened Repository
  import Service

  /** `create`: as the current service, with `Fault` for a conflict. */
  function Create(s: TableSchema, shape: set<string>, t: Table, data: Input): (r: Result<Committed<Row, Table>>)
    ensures r.Err? <==> !Consistent(s, t.rows + [NewRow(s, t, CreateData(data))])
    ensures r.Err? ==> r.error == Fault
    ensures r.Ok? ==> r == Service.Create(s, shape, t, data)
  {
    var current := Service.Create(s, shape, t, data);
    if current.Err? then Err(Fault) else current
  }

  /** `get_by_id`: `Fault` where the current service raises `NotFound`. */
  function GetById(shape: set<string>, t: Table, id: Value): (r: Result<Row>)
    ensures r == Err(Fault) <==> !Service.HasId(t, id)
    ensures r.Ok? ==> exists x :: x in t.rows && Get(x, IdField) == id && r.value == Service.Project(x, shape)
    ensures r.Err? && r.error != Fault ==> r.error == MultipleResults
    ensures r == (var current := Service.GetById(shape, t, id);
                  if current == Err(NotFound) then Err(Fault) else current)
  {
    match GetOneOrNone(t, [], Service.ById(id))
    case Ok(None) => Err(Fault)
    case Ok(Some(x)) => Ok(Service.Project(x, shape))
    case Err(e) => Err(e)
  }

  /** `get_all`: the raw page rows and the unpaginated count; an empty page
      ends in `Fault`. */
  function GetAll(t: Table, stmt: Stmt, limit: Option<int>, offset: Option<int>): (r: Result<Service.ListOut>)
    ensures r.Err? ==> r.error in {InvalidPagination, Fault}
    ensures (r.Err? && r.error == InvalidPagination) <==> Negative(offset) || Negative(limit)
    ensures r == Err(Fault) <==> !Negative(offset) && !Negative(limit) && PageSize(|Select(t.rows, stmt.where)|, offset, limit) == 0
    ensures r.Ok? ==> r.value.count == |Select(t.rows, stmt.where)|
    ensures r.Ok? ==> GetAllFromStmt(t, limit, offset, stmt) == Ok(r.value.data)
    ensures r.Ok? ==> |r.value.data| == PageSize(r.value.count, offset, limit)
    ensures r.Ok? ==> r.value.asc == Service.ListAscDefault
  {
    var fetched := GetAllFromStmt(t, limit, offset, stmt);
    if fetched.Err? then Err(InvalidPagination)
    else if |fetched.value| == 0 then Err(Fault)
    else Ok(Service.ListOut(CountSubquery(t, stmt), fetched.value, Service.ListAscDefault))
  }

  /** `update`: existence check through the legacy `get_by_id`, then the
      current service's patch; a conflict ends in `Fault`. */
  function Update(s: TableSchema, shape: set<string>, t: Table, id: Value, data: Input): (r: Result<Committed<Row, Table>>)
    ensures !Service.HasId(t, id) ==> r == Err(Fault)
    ensures r.Ok? ==> r == Service.Update(s, shape, t, id, data)
    ensures r == Err(Fault) ==> !Service.HasId(t, id) || !Consistent(s, PatchAll(t.rows, Where([Eq(IdField, id)], map[]), UpdateData(data), t.clock))
    ensures r == (var current := Service.Update(s, shape, t, id, data);
                  if current == Err(NotFound) || current == Err(Conflict) then Err(Fault) else current)
  {
    var found := GetById(shape, t, id);
    if found.Err? then Err(found.error)
    else
      MatchesKey(id);
      var updated := Repository.Update(s, t, [Eq(IdField, id)], data);
      if updated.Err? then
        (if updated.error == IntegrityViolation then Err(Fault) else Err(updated.error))
      else Ok(Committed(Service.Project(updated.value.0, shape), updated.value.1))
  }

  /** `delete`: existence check through the legacy `get_by_id`, then delete by
      key, then commit. */
  function Delete(shape: set<string>, t: Table, id: Value): (r: Result<Table>)
    ensures !Service.HasId(t, id) ==> r == Err(Fault)
    ensures r.Ok? ==> r == Service.Delete(shape, t, id)
    ensures r.Ok? ==> forall x :: x in r.value.rows <==> x in t.rows && Get(x, IdField) != id
    ensures r.Err? ==> r.error in {Fault, MultipleResults}
    ensures r == (var current := Service.Delete(shape, t, id);
                  if current == Err(NotFound) then Err(Fault) else current)
  {
    var found := GetById(shape, t, id);
    if found.Err? then Err(found.error)
    else
      MatchesKey(id);
      Ok(Repository.Delete(t, [], Service.ById(id)))
  }

  /** On a consistent table and an existing id, the older update fails
      exactly when the patched table would break a constraint, with `Fault`. */
  lemma UpdateOnConsistent(s: TableSchema, shape: set<string>, t: Table, id: Value, data: Input)
    requires Consistent(s, t.rows)
    requires Service.HasId(t, id)
    ensures var r := Update(s, shape, t, id, data);
            && (r.Err? <==> !Consistent(s, PatchAll(t.rows, Where([Eq(IdField, id)], map[]), UpdateData(data), t.clock)))
            && (r.Err? ==> r.error == Fault)
  {
    Service.UpdateOnConsistent(s, shape, t, id, data);
  }

  /** On a consistent table the older delete succeeds exactly for an existing
      id. */
  lemma DeleteOnConsistent(s: TableSchema, shape: set<string>, t: Table, id: Value)
    requires Consistent(s, t.rows)
    ensures Delete(shape, t, id).Ok? <==> Service.HasId(t, id)
  {
    Service.DeleteOnConsistent(s, shape, t, id);
  }
}

=== FILE: legacy_users.dfy ===
/** The older user service: the same hashing and patch construction as the
    current one, raising `UserAlreadyExists` on an email collision, and
    checking existence through the older generic `get_by_id`. */
module LegacyUsers {
  import opened Outcomes
  import opened Values
  import opened Repository
  import Service
  import LegacyService
  import Users

  /** `UserService.create`: an integrity violation raises
      `UserAlreadyExistsException`. */
  function Create(t: Table, data: Users.UserCreate, hash: Users.Hasher): (r: Result<Committed<Row, Table>>)
    ensures r.Err? ==> r.error == UserAlreadyExists
    ensures Consistent(Users.UserTable, t.rows) ==> (r.Err? <==> Users.EmailTaken(t, data.email))
    ensures r.Ok? ==> |r.value.state.rows| == |t.rows| + 1 && r.value.state.rows[..|t.rows|] == t.rows
    ensures r.Ok? ==> var row := r.value.state.rows[|t.rows|];
                      && Get(row, Users.EmailField) == Str(data.email)
                      && Get(row, Users.HashField) == Str(hash(data.password))
                      && Get(row, Users.AdminField) == Bool(false)
    ensures r.Ok? <==> Users.Create(t, data, hash).Ok?
  {
    var current := Users.Create(t, data, hash);
    if current.Err? then Err(UserAlreadyExists) else current
  }

  /** `UserService.update`: a missing id fails in the older `get_by_id`
      (`Fault`); otherwise the patch is the current service's, and an
      integrity violation raises `UserAlreadyExistsException`. */
  function Update(t: Table, id: Value, data: Users.UserUpdate, hash: Users.Hasher): (r: Result<Committed<Row, Table>>)
    ensures !Service.HasId(t, id) ==> r == Err(Fault)
    ensures r.Ok? ==> r == Users.Update(t, id, data, hash)
    ensures r.Ok? ==> exists i :: 0 <= i < |t.rows| && Get(t.rows[i], IdField) == id
                        && Users.UserPatched(r.value.state.rows[i], t.rows[i], data, hash, t.clock)
    ensures r == Err(UserAlreadyExists) ==> Users.Update(t, id, data, hash) == Err(Conflict)
    ensures r == (var current := Users.Update(t, id, data, hash);
                  if current == Err(NotFound) then Err(Fault)
                  else if current == Err(Conflict) then Err(UserAlreadyExists)
                  else current)
  {
    var found := LegacyService.GetById(Users.AdminShape, t, id);
    if found.Err? then Err(found.error)
    else
      var current := Users.Update(t, id, data, hash);
      if current == Err(Conflict) then Err(UserAlreadyExists) else current
  }

  /** On a consistent table holding `id`, the older update fails exactly when
      it would give the user another user's email, with
      `UserAlreadyExists`. */
  lemma UpdateConflictIff(t: Table, id: Value, data: Users.UserUpdate, hash: Users.Hasher)
    requires Consistent(Users.UserTable, t.rows)
    requires Service.HasId(t, id)
    ensures Update(t, id, data, hash).Err? <==> data.email.Some? && Users.EmailTakenByOther(t, id, data.email.value)
    ensures Update(t, id, data, hash).Err? ==> Update(t, id, data, hash).error == UserAlreadyExists
  {
    Service.GetByIdOnConsistent(Users.UserTable, Users.AdminShape, t, id);
    var found := LegacyService.GetById(Users.AdminShape, t, id);
    assert found.Ok?;
    var current := Users.Update(t, id, data, hash);
    assert Update(t, id, data, hash) == if current == Err(Conflict) then Err(UserAlreadyExists) else current;
    Users.UpdateConflictIff(t, id, data, hash);
  }
}

=== FILE: outcomes.dfy ===
/** Optional values, the failures the CRUD layer distinguishes, and the
    result type every fallible operation returns. */
module Outcomes {

  datatype Option<+T> = None | Some(value: T)

  /** One constructor per exception the modelled code can raise or
      propagate. */
  datatype Error =
    | IntegrityViolation  // the store refused a write that breaks a constraint
    | MultipleResults     // a one-row query matched several rows
    | NoResult            // a one-row query matched no row
    | InvalidPagination   // a negative offset or limit, refused by the store
    | InvalidQuery        // query parameters the query schema rejects
    | NotFound            // NotFoundException
    | Conflict            // ConflictException
    | UserAlreadyExists   // UserAlreadyExistsException
    | Fault               // a legacy error path that raises through a type variable

  datatype Result<+T> = Ok(value: T) | Err(error: Error)

  /** What a committing operation hands back: its output and the table as
      committed. A failed operation returns `Err` and commits nothing. */
  datatype Committed<+T, +S> = Committed(out: T, state: S)
}

=== FILE: repository.dfy ===
/** The generic repository: every query-builder call of the base repository
    as a pure operation on a table. Nothing here commits; a successful write
    returns the table the session would hold, a failed one returns `Err` and
    the caller keeps the table it had (the session is rolled back). */
module Repository {
  import opened Outcomes
  import opened Values
  import opened Sorting

  const IdField: string := "id"
  const CreatedField: string := "created_at"
  const UpdatedField: string := "updated_at"

  /** Pagination defaults of the `get_all` family and of the pagination schema. */
  const DefaultOffset: int := 0
  const DefaultLimit: int := 100

  /** What the store knows about a table: column defaults applied to absent
      columns, columns under a UNIQUE constraint, and NOT NULL columns. The
      primary key `id` is always unique and never NULL. */
  datatype TableSchema = TableSchema(defaults: Row, unique: set<string>, required: set<string>)

  /** A table: its rows in insertion order and a logical clock that ticks on
      every committed write and stands in for `CURRENT_TIMESTAMP`. */
  datatype Table = Table(rows: seq<Row>, clock: nat)

  // ---------------------------------------------------------------------
  // Inputs: a plain dict, or a schema instance
  // ---------------------------------------------------------------------

  /** `obj_in`: a plain dict, or a schema instance given as its field values
      and the set of fields the caller set explicitly. */
  datatype Input = Fields(fields: Row) | Schema(values: Row, explicit: set<string>)

  /** `model_dump(exclude_unset=True[, exclude_none=True])`. */
  function Dump(values: Row, explicit: set<string>, excludeNone: bool): Row {
    map f | f in values && f in explicit && !(excludeNone && values[f] == Null) :: values[f]
  }

  /** The column values an insert receives. */
  function CreateData(obj: Input): (data: Row)
    ensures obj.Fields? ==> data == obj.fields
    ensures obj.Schema? ==> forall f :: f in data <==> f in obj.values && f in obj.explicit
    ensures obj.Schema? ==> forall f :: f in data ==> data[f] == obj.values[f]
  {
    match obj
    case Fields(d) => d
    case Schema(v, e) => Dump(v, e, false)
  }

  /** The column values an update writes: for a schema instance, only fields
      set explicitly and not None. */
  function UpdateData(obj: Input): (data: Row)
    ensures obj.Fields? ==> data == obj.fields
    ensures obj.Schema? ==> forall f :: f in data <==> f in obj.values && f in obj.explicit && obj.values[f] != Null
    ensures obj.Schema? ==> forall f :: f in data ==> data[f] == obj.values[f]
  {
    match obj
    case Fields(d) => d
    case Schema(v, e) => Dump(v, e, true)
  }

  // ---------------------------------------------------------------------
  // WHERE clauses
  // ---------------------------------------------------------------------

  /** One condition of a `filter(...)` / `where(...)` call. */
  datatype Cond =
    | Eq(field: string, value: Value)        // column == value (IS NULL for None)
    | ILike(field: string, pattern: string)  // column ILIKE '%pattern%'
    | NotNull(field: string)                 // column IS NOT NULL
    | IsBool(field: string, flag: bool)      // column IS true / IS false

  predicate Holds(c: Cond, row: Row) {
    match c
    case Eq(f, v) => Get(row, f) == v
    case ILike(f, p) => Get(row, f).Str? && ContainsInsensitive(Get(row, f).s, p)
    case NotNull(f) => Get(row, f) != Null
    case IsBool(f, b) => Get(row, f) == Bool(b)
  }

  /** A WHERE clause: the conditions of `filter(*filter)`, the equalities of
      `filter_by(**filter_by)` and, when `search` is non-empty, the OR of one
      `ilike` per searched column. */
  datatype Criteria = Criteria(conds: seq<Cond>, eqs: Row, search: map<string, string>)

  predicate Matches(c: Criteria, row: Row) {
    && (forall i :: 0 <= i < |c.conds| ==> Holds(c.conds[i], row))
    && (forall f :: f in c.eqs ==> Get(row, f) == c.eqs[f])
    && (|c.search| == 0 || exists f :: f in c.search && Holds(ILike(f, c.search[f]), row))
  }

  function Where(filter: seq<Cond>, filterBy: Row): Criteria {
    Criteria(filter, filterBy, map[])
  }

  /** The rows whose match status equals `keep`, in table order. */
  function Filter(rows: seq<Row>, c: Criteria, keep: bool): (r: seq<Row>)
    ensures |r| <= |rows|
    ensures forall x :: x in r <==> x in rows && Matches(c, x) == keep
  {
    if |rows| == 0 then []
    else (if Matches(c, rows[0]) == keep then [rows[0]] else []) + Filter(rows[1..], c, keep)
  }

  /** `a` is `b` with some rows left out, the rest in their order. */
  ghost predicate Embeds(a: seq<Row>, b: seq<Row>)
    decreases |b|
  {
    if |a| == 0 then true
    else if |b| == 0 then false
    else (a[0] == b[0] && Embeds(a[1..], b[1..])) || Embeds(a, b[1..])
  }

  /** Filtering keeps the surviving rows in their original order. */
  lemma {:induction false} FilterEmbeds(rows: seq<Row>, c: Criteria, keep: bool)
    ensures Embeds(Filter(rows, c, keep), rows)
  {
    if |rows| > 0 {
      var r := Filter(rows, c, keep);
      var rest := Filter(rows[1..], c, keep);
      FilterEmbeds(rows[1..], c, keep);
      if Matches(c, rows[0]) == keep {
        assert r == [rows[0]] + rest;
        assert r[1..] == rest;
      } else {
        assert r == rest;
      }
    }
  }

  /** The positions from `lo` on whose row meets `c`. */
  function MatchPositions(rows: seq<Row>, c: Criteria, lo: nat): set<int>
    requires lo <= |rows|
  {
    set i | lo <= i < |rows| && Matches(c, rows[i])
  }

  /** The number of positions of `rows` holding a row that meets `c`,
      independent of how a selection is built. */
  function MatchCount(rows: seq<Row>, c: Criteria): nat {
    |MatchPositions(rows, c, 0)|
  }

  lemma {:induction false} SelectCountFrom(rows: seq<Row>, c: Criteria, lo: nat)
    requires lo <= |rows|
    ensures |Filter(rows[lo..], c, true)| == |MatchPositions(rows, c, lo)|
    decreases |rows| - lo
  {
    if lo == |rows| {
      assert MatchPositions(rows, c, lo) == {};
    } else {
      SelectCountFrom(rows, c, lo + 1);
      MatchPositionsStep(rows, c, lo);
      assert rows[lo..][1..] == rows[lo + 1..];
      assert rows[lo..][0] == rows[lo];
    }
  }

  lemma MatchPositionsStep(rows: seq<Row>, c: Criteria, lo: nat)
    requires lo < |rows|
    ensures |MatchPositions(rows, c, lo)| == (if Matches(c, rows[lo]) then 1 else 0) + |MatchPositions(rows, c, lo + 1)|
  {
    var here := MatchPositions(rows, c, lo);
    var later := MatchPositions(rows, c, lo + 1);
    var first: set<int> := if Matches(c, rows[lo]) then {lo} else {};
    forall i
      ensures i in here <==> i in first || i in later
    {
    }
    assert here == first + later;
    assert first * later == {};
    assert |first + later| == |first| + |later|;
  }

  /** A selection holds one row per matching position of the table. */
  lemma SelectCount(rows: seq<Row>, c: Criteria)
    ensures |Filter(rows, c, true)| == MatchCount(rows, c)
  {
    SelectCountFrom(rows, c, 0);
    assert rows[0..] == rows;
  }

  /** Every row lands on exactly one side of a filter. */
  lemma {:induction false} FilterSplit(rows: seq<Row>, c: Criteria)
    ensures |Filter(rows, c, true)| + |Filter(rows, c, false)| == |rows|
  {
    if |rows| > 0 {
      FilterSplit(rows[1..], c);
    }
  }

  /** A filter that no row passes yields nothing. */
  lemma {:induction false} FilterNone(rows: seq<Row>, c: Criteria, keep: bool)
    requires forall j :: 0 <= j < |rows| ==> Matches(c, rows[j]) != keep
    ensures Filter(rows, c, keep) == []
  {
    if |rows| > 0 {
      FilterNone(rows[1..], c, keep);
    }
  }

  /** A row meets `[cond] + filter` exactly when it meets `cond` and `filter`. */
  lemma MatchesWithExtraCond(cond: Cond, filter: seq<Cond>, filterBy: Row)
    ensures forall x :: Matches(Where([cond] + filter, filterBy), x) <==> Holds(cond, x) && Matches(Where(filter, filterBy), x)
  {
    forall x
      ensures Matches(Where([cond] + filter, filterBy), x) <==> Holds(cond, x) && Matches(Where(filter, filterBy), x)
    {
      var all := [cond] + filter;
      if Holds(cond, x) && Matches(Where(filter, filterBy), x) {
        forall i | 0 <= i < |all| ensures Holds(all[i], x) {
          if i > 0 { assert all[i] == filter[i - 1]; }
        }
      }
      if Matches(Where(all, filterBy), x) {
        assert Holds(all[0], x);
        forall i | 0 <= i < |filter| ensures Holds(filter[i], x) {
          assert all[i + 1] == filter[i];
        }
      }
    }
  }

  /** The criterion `id == key` selects exactly the rows with that key. */
  lemma MatchesKey(id: Value)
    ensures forall x :: Matches(Where([Eq(IdField, id)], map[]), x) <==> Get(x, IdField) == id
    ensures forall x :: Matches(Where([], map[IdField := id]), x) <==> Get(x, IdField) == id
  {
    forall x ensures Matches(Where([Eq(IdField, id)], map[]), x) <==> Get(x, IdField) == id {
      assert Holds([Eq(IdField, id)][0], x) <==> Get(x, IdField) == id;
    }
  }

  function Select(rows: seq<Row>, c: Criteria): seq<Row> {
    Filter(rows, c, true)
  }

  // ---------------------------------------------------------------------
  // Store constraints
  // ---------------------------------------------------------------------

  /** The row has a primary key and a value in every NOT NULL column. */
  predicate Complete(s: TableSchema, row: Row) {
    Get(row, IdField) != Null && forall f :: f in s.required ==> Get(row, f) != Null
  }

  /** Two rows share a primary key or a non-NULL value of a unique column. */
  predicate Clash(s: TableSchema, a: Row, b: Row) {
    || Get(a, IdField) == Get(b, IdField)
    || exists f :: f in s.unique && Get(a, f) != Null && Get(a, f) == Get(b, f)
  }

  /** Every constraint of the table holds. */
  predicate Consistent(s: TableSchema, rows: seq<Row>) {
    && (forall i :: 0 <= i < |rows| ==> Complete(s, rows[i]))
    && (forall i, j :: 0 <= i < j < |rows| ==> !Clash(s, rows[i], rows[j]))
  }

  /** Appending a row to a consistent table keeps it consistent exactly when
      the row is complete and clashes with no stored row. */
  lemma AppendConsistent(s: TableSchema, rows: seq<Row>, row: Row)
    requires Consistent(s, rows)
    ensures Consistent(s, rows + [row]) <==> Complete(s, row) && forall x :: x in rows ==> !Clash(s, x, row)
  {
    var rows' := rows + [row];
    if Complete(s, row) && forall x :: x in rows ==> !Clash(s, x, row) {
      forall i, j | 0 <= i < j < |rows'|
        ensures !Clash(s, rows'[i], rows'[j])
      {
        if j == |rows| {
          assert rows'[i] in rows;
        }
      }
    }
    if Consistent(s, rows') {
      forall x | x in rows
        ensures !Clash(s, x, row)
      {
        var i :| 0 <= i < |rows| && rows[i] == x;
        assert rows'[i] == x && rows'[|rows|] == row;
      }
      assert rows'[|rows|] == row;
    }
  }

  /** Removing rows from a consistent table keeps it consistent. */
  lemma {:induction false} FilterKeepsConsistent(s: TableSchema, rows: seq<Row>, c: Criteria, keep: bool)
    requires Consistent(s, rows)
    ensures Consistent(s, Filter(rows, c, keep))
  {
    if |rows| > 0 {
      var tail := rows[1..];
      TailConsistent(s, rows);
      FilterKeepsConsistent(s, tail, c, keep);
      var rest := Filter(tail, c, keep);
      if Matches(c, rows[0]) == keep {
        forall y | y in rest
          ensures !Clash(s, rows[0], y)
        {
          var b :| 0 <= b < |tail| && tail[b] == y;
          assert rows[b + 1] == y;
        }
        ConsConsistent(s, rows[0], rest);
        assert Filter(rows, c, keep) == [rows[0]] + rest;
      } else {
        assert Filter(rows, c, keep) == rest;
      }
    }
  }

  /** Dropping the first row keeps a table consistent. */
  lemma TailConsistent(s: TableSchema, rows: seq<Row>)
    requires |rows| > 0 && Consistent(s, rows)
    ensures Consistent(s, rows[1..])
  {
    var tail := rows[1..];
    forall i | 0 <= i < |tail|
      ensures Complete(s, tail[i])
    {
      assert tail[i] == rows[i + 1];
    }
    forall i, j | 0 <= i < j < |tail|
      ensures !Clash(s, tail[i], tail[j])
    {
      assert tail[i] == rows[i + 1] && tail[j] == rows[j + 1];
    }
  }

  /** A complete row in front of a consistent table that it clashes with
      nowhere keeps the table consistent. */
  lemma ConsConsistent(s: TableSchema, x: Row, rows: seq<Row>)
    requires Complete(s, x) && Consistent(s, rows)
    requires forall y :: y in rows ==> !Clash(s, x, y)
    ensures Consistent(s, [x] + rows)
  {
    var xs := [x] + rows;
    forall i | 0 <= i < |xs|
      ensures Complete(s, xs[i])
    {
      if i > 0 {
        assert xs[i] == rows[i - 1];
      }
    }
    forall i, j | 0 <= i < j < |xs|
      ensures !Clash(s, xs[i], xs[j])
    {
      assert xs[j] == rows[j - 1];
      if i > 0 {
        assert xs[i] == rows[i - 1];
      } else {
        assert rows[j - 1] in rows;
      }
    }
  }

  lemma ClashSymmetric(s: TableSchema, a: Row, b: Row)
    ensures Clash(s, a, b) <==> Clash(s, b, a)
  {
    if f :| f in s.unique && Get(a, f) != Null && Get(a, f) == Get(b, f) {
      assert Get(b, f) != Null && Get(b, f) == Get(a, f);
    }
    if f :| f in s.unique && Get(b, f) != Null && Get(b, f) == Get(a, f) {
      assert Get(a, f) != Null && Get(a, f) == Get(b, f);
    }
  }

  /** Two distinct positions of a consistent table never clash, in either
      order, and so never share a primary key. */
  lemma NoClashAt(s: TableSchema, rows: seq<Row>, i: int, j: int)
    requires Consistent(s, rows)
    requires 0 <= i < |rows| && 0 <= j < |rows| && i != j
    ensures !Clash(s, rows[i], rows[j])
    ensures Get(rows[i], IdField) != Get(rows[j], IdField)
  {
    if j < i {
      ClashSymmetric(s, rows[i], rows[j]);
    }
  }

  /** Replacing one row of a consistent table keeps it consistent exactly
      when the new row is complete and clashes with none of the others. */
  lemma ReplaceConsistent(s: TableSchema, rows: seq<Row>, k: int, row: Row)
    requires Consistent(s, rows)
    requires 0 <= k < |rows|
    ensures Consistent(s, rows[k := row]) <==>
            Complete(s, row) && forall j :: 0 <= j < |rows| && j != k ==> !Clash(s, rows[j], row)
  {
    var rows' := rows[k := row];
    if Complete(s, row) && forall j :: 0 <= j < |rows| && j != k ==> !Clash(s, rows[j], row) {
      forall i, j | 0 <= i < j < |rows'|
        ensures !Clash(s, rows'[i], rows'[j])
      {
        if i == k {
          ClashSymmetric(s, row, rows[j]);
        }
      }
    }
    if Consistent(s, rows') {
      assert Complete(s, rows'[k]);
      forall j | 0 <= j < |rows| && j != k
        ensures !Clash(s, rows[j], row)
      {
        if j < k {
          assert !Clash(s, rows'[j], rows'[k]);
        } else {
          assert !Clash(s, rows'[k], rows'[j]);
          ClashSymmetric(s, row, rows[j]);
        }
      }
    }
  }

  /** In a consistent table at most one row carries a given primary key or a
      given non-NULL value of a unique column, so a criterion that pins such a
      value selects at most one row. */
  lemma PinnedSelectAtMostOne(s: TableSchema, rows: seq<Row>, c: Criteria, f: string, v: Value)
    requires Consistent(s, rows)
    requires f == IdField || (f in s.unique && v != Null)
    requires forall x :: Matches(c, x) ==> Get(x, f) == v
    ensures |Select(rows, c)| <= 1
  {
    PinnedSuffixAtMostOne(s, rows, c, f, v, 0);
    assert rows[0..] == rows;
  }

  lemma {:induction false} PinnedSuffixAtMostOne(s: TableSchema, rows: seq<Row>, c: Criteria, f: string, v: Value, k: int)
    requires Consistent(s, rows)
    requires f == IdField || (f in s.unique && v != Null)
    requires forall x :: Matches(c, x) ==> Get(x, f) == v
    requires 0 <= k <= |rows|
    ensures |Select(rows[k..], c)| <= 1
    decreases |rows| - k
  {
    if k < |rows| {
      assert rows[k..][1..] == rows[k + 1..];
      PinnedSuffixAtMostOne(s, rows, c, f, v, k + 1);
      if Matches(c, rows[k]) {
        var later := rows[k + 1..];
        forall j | 0 <= j < |later|
          ensures !Matches(c, later[j])
        {
          assert later[j] == rows[k + 1 + j];
          assert !Clash(s, rows[k], rows[k + 1 + j]);
          if f != IdField {
            assert f in s.unique && Get(rows[k], f) != Null;
          }
        }
        FilterNone(rows[k + 1..], c, true);
      }
    }
  }

  // ---------------------------------------------------------------------
  // Create
  // ---------------------------------------------------------------------

  /** An upper bound of the integer primary keys stored in `rows`. */
  function MaxId(rows: seq<Row>): (m: int)
    ensures forall x :: x in rows && Get(x, IdField).Int? ==> Get(x, IdField).i <= m
  {
    if |rows| == 0 then 0
    else
      var head := if Get(rows[0], IdField).Int? then Get(rows[0], IdField).i else 0;
      var tail := MaxId(rows[1..]);
      assert forall x :: x in rows ==> x == rows[0] || x in rows[1..];
      if head < tail then tail else head
  }

  /** A generated primary key: it differs from every stored one (it stands in
      for `uuid.uuid4()`). */
  function FreshId(rows: seq<Row>): (v: Value)
    ensures v != Null
    ensures forall x :: x in rows ==> Get(x, IdField) != v
  {
    Int(MaxId(rows) + 1)
  }

  /** The row an insert of `data` stores: store defaults first, the given
      column values over them. */
  function NewRow(s: TableSchema, t: Table, data: Row): Row {
    s.defaults + map[IdField := FreshId(t.rows), CreatedField := Int(t.clock), UpdatedField := Int(t.clock)] + data
  }

  /** `create`: `insert(...).values(**data).returning(...)`, then `.one()`. */
  function Create(s: TableSchema, t: Table, obj: Input): (r: Result<(Row, Table)>)
    ensures r.Ok? <==> Consistent(s, t.rows + [NewRow(s, t, CreateData(obj))])
    ensures r.Err? ==> r.error == IntegrityViolation
    ensures r.Ok? ==> r.value.1 == Table(t.rows + [r.value.0], t.clock + 1)
    ensures r.Ok? ==> forall f :: f in CreateData(obj) ==> Get(r.value.0, f) == CreateData(obj)[f]
    ensures r.Ok? ==> forall f :: f !in CreateData(obj) && f in s.defaults && f !in {IdField, CreatedField, UpdatedField} ==>
                        Get(r.value.0, f) == s.defaults[f]
    ensures r.Ok? && IdField !in CreateData(obj) ==> forall x :: x in t.rows ==> Get(x, IdField) != Get(r.value.0, IdField)
    ensures r.Ok? && CreatedField !in CreateData(obj) ==> Get(r.value.0, CreatedField) == Int(t.clock)
    ensures r.Ok? && UpdatedField !in CreateData(obj) ==> Get(r.value.0, UpdatedField) == Int(t.clock)
    ensures r.Ok? ==> forall f :: f in r.value.0 ==> f in CreateData(obj) || f in s.defaults || f in {IdField, CreatedField, UpdatedField}
  {
    var row := NewRow(s, t, CreateData(obj));
    if Consistent(s, t.rows + [row]) then Ok((row, Table(t.rows + [row], t.clock + 1)))
    else Err(IntegrityViolation)
  }

  // ---------------------------------------------------------------------
  // Read
  // ---------------------------------------------------------------------

  /** `get_one_or_none`: `.one_or_none()` over the matching rows. */
  function GetOneOrNone(t: Table, filter: seq<Cond>, filterBy: Row): (r: Result<Option<Row>>)
    ensures r == Ok(None) <==> forall x :: x in t.rows ==> !Matches(Where(filter, filterBy), x)
    ensures r.Ok? && r.value.Some? ==>
      && r.value.value in t.rows && Matches(Where(filter, filterBy), r.value.value)
      && Count(t, filter, filterBy) == 1
    ensures r.Err? <==> Count(t, filter, filterBy) >= 2
    ensures r.Err? ==> r.error == MultipleResults
  {
    var hits := Select(t.rows, Where(filter, filterBy));
    if |hits| == 0 then Ok(None)
    else
      assert hits[0] in hits;
      if |hits| == 1 then Ok(Some(hits[0])) else Err(MultipleResults)
  }

  predicate Negative(n: Option<int>) {
    n.Some? && n.value < 0
  }

  /** The page length `min(limit, max(0, count - offset))`; an absent offset
      skips nothing and an absent limit takes everything left. */
  function PageSize(count: nat, offset: Option<int>, limit: Option<int>): nat {
    var skipped := if offset.Some? then offset.value else 0;
    var left := if count - skipped > 0 then count - skipped else 0;
    if limit.Some? && 0 <= limit.value < left then limit.value else left
  }

  /** Where the page starts in the full result. */
  function PageStart(count: nat, offset: Option<int>): nat {
    if offset.Some? && 0 <= offset.value then (if offset.value < count then offset.value else count) else 0
  }

  /** `.offset(offset).limit(limit)`: the store applies OFFSET before LIMIT
      whichever is written first, refuses negative values, and treats None as
      no clause. */
  function Page(rows: seq<Row>, offset: Option<int>, limit: Option<int>): (r: Result<seq<Row>>)
    ensures r.Err? <==> Negative(offset) || Negative(limit)
    ensures r.Err? ==> r.error == InvalidPagination
    ensures r.Ok? ==> |r.value| == PageSize(|rows|, offset, limit)
    ensures r.Ok? ==> PageStart(|rows|, offset) + |r.value| <= |rows|
    ensures r.Ok? ==> r.value == rows[PageStart(|rows|, offset)..PageStart(|rows|, offset) + |r.value|]
    ensures r.Ok? ==> forall x :: x in r.value ==> x in rows
  {
    if Negative(offset) || Negative(limit) then Err(InvalidPagination)
    else
      var start := PageStart(|rows|, offset);
      var rest := rows[start..];
      var page := if limit.Some? && limit.value < |rest| then rest[..limit.value] else rest;
      assert forall x :: x in page ==> x in rows by {
        forall x | x in page ensures x in rows {
          var k :| 0 <= k < |page| && page[k] == x;
          assert rows[start + k] == x;
        }
      }
      Ok(page)
  }

  /** `get_all`: the matching rows, offset and limited; an empty list, not an
      error, when nothing matches. */
  function GetAll(t: Table, offset: int, limit: int, filter: seq<Cond>, filterBy: Row): (r: Result<seq<Row>>)
    ensures r.Ok? <==> offset >= 0 && limit >= 0
    ensures r.Ok? ==> |r.value| == PageSize(Count(t, filter, filterBy), Some(offset), Some(limit))
    ensures r.Ok? ==> forall x :: x in r.value ==> x in t.rows && Matches(Where(filter, filterBy), x)
    ensures r.Ok? && Count(t, filter, filterBy) == 0 ==> r.value == []
  {
    Page(Select(t.rows, Where(filter, filterBy)), Some(offset), Some(limit))
  }

  /** `get_all` skips the first `offset` matching rows and keeps the next
      ones, in table order. */
  lemma GetAllIsSlice(t: Table, offset: int, limit: int, filter: seq<Cond>, filterBy: Row)
    ensures var r := GetAll(t, offset, limit, filter, filterBy);
            var hits := Select(t.rows, Where(filter, filterBy));
            var start := PageStart(|hits|, Some(offset));
            r.Ok? ==> start + |r.value| <= |hits| && r.value == hits[start..start + |r.value|]
  {
  }

  /** Without an offset and with a limit covering the table, `get_all`
      returns every matching row. */
  lemma GetAllReturnsEveryMatch(t: Table, limit: int, filter: seq<Cond>, filterBy: Row)
    requires limit >= |t.rows|
    ensures GetAll(t, 0, limit, filter, filterBy).Ok?
    ensures forall x :: x in t.rows && Matches(Where(filter, filterBy), x) ==> x in GetAll(t, 0, limit, filter, filterBy).value
  {
    var hits := Select(t.rows, Where(filter, filterBy));
    assert GetAll(t, 0, limit, filter, filterBy).value == hits;
  }

  /** A row meets the `get_all_ilike` criterion exactly when it meets the
      filters and, for a non-empty search map, some searched column holds
      text containing the searched value case-insensitively. */
  lemma SearchMatches(filter: seq<Cond>, filterBy: Row, search: map<string, string>, x: Row)
    ensures Matches(Criteria(filter, filterBy, search), x) <==>
              && Matches(Where(filter, filterBy), x)
              && (|search| == 0 || exists f :: f in search && Get(x, f).Str? && ContainsInsensitive(Get(x, f).s, search[f]))
  {
  }

  /** `get_all_ilike`: like `get_all`, and when `search` is non-empty a row
      must also contain, case-insensitively, the searched text in at least one
      searched column. */
  function GetAllILike(t: Table, search: map<string, string>, offset: int, limit: int,
                       filter: seq<Cond>, filterBy: Row): (r: Result<seq<Row>>)
    ensures r.Ok? <==> offset >= 0 && limit >= 0
    ensures r.Ok? ==> |r.value| == PageSize(CountAllILike(t, search, filter, filterBy), Some(offset), Some(limit))
    ensures r.Ok? ==> forall x :: x in r.value ==>
      && x in t.rows && Matches(Where(filter, filterBy), x)
      && (|search| == 0 || exists f :: f in search && Get(x, f).Str? && ContainsInsensitive(Get(x, f).s, search[f]))
  {
    Page(Select(t.rows, Criteria(filter, filterBy, search)), Some(offset), Some(limit))
  }

  /** `get_all_ilike` skips the first `offset` qualifying rows and keeps the
      next ones, in table order. */
  lemma GetAllILikeIsSlice(t: Table, search: map<string, string>, offset: int, limit: int,
                           filter: seq<Cond>, filterBy: Row)
    ensures var r := GetAllILike(t, search, offset, limit, filter, filterBy);
            var hits := Select(t.rows, Criteria(filter, filterBy, search));
            var start := PageStart(|hits|, Some(offset));
            r.Ok? ==> start + |r.value| <= |hits| && r.value == hits[start..start + |r.value|]
  {
  }

  /** Without an offset and with a limit covering the table, `get_all_ilike`
      returns every row that meets the filters and the search. */
  lemma GetAllILikeReturnsEveryMatch(t: Table, search: map<string, string>, limit: int,
                                     filter: seq<Cond>, filterBy: Row)
    requires limit >= |t.rows|
    ensures GetAllILike(t, search, 0, limit, filter, filterBy).Ok?
    ensures forall x :: x in t.rows && Matches(Where(filter, filterBy), x)
                        && (|search| == 0 || exists f :: f in search && Get(x, f).Str? && ContainsInsensitive(Get(x, f).s, search[f]))
                        ==> x in GetAllILike(t, search, 0, limit, filter, filterBy).value
  {
    var hits := Select(t.rows, Criteria(filter, filterBy, search));
    assert GetAllILike(t, search, 0, limit, filter, filterBy).value == hits;
    forall x | x in t.rows && Matches(Where(filter, filterBy), x)
                && (|search| == 0 || exists f :: f in search && Get(x, f).Str? && ContainsInsensitive(Get(x, f).s, search[f]))
      ensures x in hits
    {
      SearchMatches(filter, filterBy, search, x);
    }
  }

  /** `get_all_sorted`: the matching rows whose sort column is not NULL,
      ordered by it, cut to `limit` when one is given. */
  function GetAllSorted(t: Table, field: string, ascending: bool, limit: Option<int>,
                        filter: seq<Cond>, filterBy: Row): (r: Result<seq<Row>>)
    ensures r.Ok? <==> !Negative(limit)
    ensures r.Ok? ==> forall x :: x in r.value ==> x in t.rows && Get(x, field) != Null && Matches(Where(filter, filterBy), x)
    ensures r.Ok? ==> Sorted(r.value, field, ascending)
    ensures r.Ok? && limit.Some? ==> |r.value| <= limit.value
    ensures r.Ok? && limit.None? ==> multiset(r.value) == multiset(Select(t.rows, Where([NotNull(field)] + filter, filterBy)))
    ensures r.Ok? ==> |r.value| == PageSize(|Select(t.rows, Where([NotNull(field)] + filter, filterBy))|, None, limit)
  {
    var hits := Select(t.rows, Where([NotNull(field)] + filter, filterBy));
    var r := Page(SortBy(hits, field, ascending), None, limit);
    if r.Ok? then
      TopOfSorted(hits, field, ascending, limit);
      MatchesWithExtraCond(NotNull(field), filter, filterBy);
      r
    else r
  }

  /** With a limit, `get_all_sorted` keeps rows drawn from the qualifying
      ones, each allowed before every qualifying row it leaves out. */
  lemma GetAllSortedKeepsTop(t: Table, field: string, ascending: bool, limit: Option<int>,
                             filter: seq<Cond>, filterBy: Row)
    ensures var r := GetAllSorted(t, field, ascending, limit, filter, filterBy);
            var hits := Select(t.rows, Where([NotNull(field)] + filter, filterBy));
            r.Ok? ==> && multiset(r.value) <= multiset(hits)
                      && forall x, y :: x in r.value && y in multiset(hits) - multiset(r.value) ==> Before(x, y, field, ascending)
  {
    if !Negative(limit) {
      TopOfSorted(Select(t.rows, Where([NotNull(field)] + filter, filterBy)), field, ascending, limit);
    }
  }

  /** The first `limit` rows of a sort: as many as the limit allows, drawn
      from the input, in order, and each allowed before every row left out. */
  lemma TopOfSorted(hits: seq<Row>, field: string, ascending: bool, limit: Option<int>)
    requires !Negative(limit)
    ensures var r := Page(SortBy(hits, field, ascending), None, limit);
            && r.Ok?
            && |r.value| == PageSize(|hits|, None, limit)
            && multiset(r.value) <= multiset(hits)
            && (limit.None? ==> multiset(r.value) == multiset(hits))
            && (forall x :: x in r.value ==> x in hits)
            && Sorted(r.value, field, ascending)
            && (forall x, y :: x in r.value && y in multiset(hits) - multiset(r.value) ==> Before(x, y, field, ascending))
  {
    var sorted := SortBy(hits, field, ascending);
    SortPreservesLength(hits, field, ascending);
    var r := Page(sorted, None, limit);
    assert r.value == sorted[..|r.value|];
    TopOfOrdered(sorted, hits, field, ascending, |r.value|);
  }

  /** A prefix of an ordered permutation of `hits`. */
  lemma TopOfOrdered(sorted: seq<Row>, hits: seq<Row>, field: string, ascending: bool, k: int)
    requires Sorted(sorted, field, ascending) && multiset(sorted) == multiset(hits)
    requires 0 <= k <= |sorted|
    ensures multiset(sorted[..k]) <= multiset(hits)
    ensures k == |sorted| ==> multiset(sorted[..k]) == multiset(hits)
    ensures forall x :: x in sorted[..k] ==> x in hits
    ensures Sorted(sorted[..k], field, ascending)
    ensures forall x, y :: x in sorted[..k] && y in multiset(hits) - multiset(sorted[..k]) ==> Before(x, y, field, ascending)
  {
    PrefixFirst(sorted, field, ascending, k);
    SortedSlice(sorted, field, ascending, 0, k);
    SameMembers(sorted, hits);
    assert sorted == sorted[..k] + sorted[k..];
    assert k == |sorted| ==> sorted[..k] == sorted;
  }

  /** A statement composed by an entity repository: a WHERE clause and an
      optional ORDER BY column. */
  datatype Order = Order(field: string, ascending: bool)
  datatype Stmt = Stmt(where: Criteria, order: Option<Order>)

  /** The rows a composed statement selects, in its order. */
  function Run(t: Table, stmt: Stmt): (r: seq<Row>)
    ensures |r| == |Select(t.rows, stmt.where)|
    ensures stmt.order.None? ==> r == Select(t.rows, stmt.where)
  {
    var hits := Select(t.rows, stmt.where);
    match stmt.order
    case None => hits
    case Some(o) =>
      SortPreservesLength(hits, o.field, o.ascending);
      SortBy(hits, o.field, o.ascending)
  }
  /** The executed statement returns exactly the selected rows, reordered. */
  lemma RunPermutes(t: Table, stmt: Stmt)
    ensures multiset(Run(t, stmt)) == multiset(Select(t.rows, stmt.where))
  {
  }

  /** An ordered statement returns its rows sorted on the order field. */
  lemma RunSorted(t: Table, stmt: Stmt)
    requires stmt.order.Some?
    ensures Sorted(Run(t, stmt), stmt.order.value.field, stmt.order.value.ascending)
  {
  }


  /** `get_all_with_pagination_from_stmt`. */
  function GetAllFromStmt(t: Table, limit: Option<int>, offset: Option<int>, stmt: Stmt): (r: Result<seq<Row>>)
    ensures r.Err? <==> Negative(offset) || Negative(limit)
    ensures r.Err? ==> r.error == InvalidPagination
    ensures r.Ok? ==> |r.value| == PageSize(CountSubquery(t, stmt), offset, limit)
    ensures r.Ok? ==> forall x :: x in r.value ==> x in t.rows && Matches(stmt.where, x)
    ensures r.Ok? ==> var start := PageStart(CountSubquery(t, stmt), offset);
                      start + |r.value| <= |Run(t, stmt)| && r.value == Run(t, stmt)[start..start + |r.value|]
  {
    var all := Run(t, stmt);
    RunPermutes(t, stmt);
    SameMembers(all, Select(t.rows, stmt.where));
    Page(all, offset, limit)
  }

  // ---------------------------------------------------------------------
  // Update
  // ---------------------------------------------------------------------

  /** `row'` is `row` with `data` written over it and, unless `data` sets it,
      `updated_at` refreshed to `clock`; every other column is unchanged. */
  ghost predicate PatchedFrom(row': Row, row: Row, data: Row, clock: nat) {
    forall f :: Get(row', f) == (if f in data then data[f] else if f == UpdatedField then Int(clock) else Get(row, f))
  }

  function Patch(row: Row, data: Row, clock: nat): (r: Row)
    ensures PatchedFrom(r, row, data, clock)
  {
    if UpdatedField in data then row + data else (row + data)[UpdatedField := Int(clock)]
  }

  /** Each matching row patched, every other row as it was. */
  function PatchAll(rows: seq<Row>, c: Criteria, data: Row, clock: nat): (r: seq<Row>)
    ensures |r| == |rows|
    ensures forall i :: 0 <= i < |rows| && Matches(c, rows[i]) ==> PatchedFrom(r[i], rows[i], data, clock)
    ensures forall i :: 0 <= i < |rows| && !Matches(c, rows[i]) ==> r[i] == rows[i]
  {
    seq(|rows|, i requires 0 <= i < |rows| => if Matches(c, rows[i]) then Patch(rows[i], data, clock) else rows[i])
  }

  /** `update`: `update(...).where(*where).values(**data).returning(...)`,
      then `.one()`. The store checks its constraints on the statement; `.one()`
      then insists on exactly one updated row. */
  function Update(s: TableSchema, t: Table, where: seq<Cond>, obj: Input): (r: Result<(Row, Table)>)
    ensures r.Ok? <==> Consistent(s, PatchAll(t.rows, Where(where, map[]), UpdateData(obj), t.clock)) && Count(t, where, map[]) == 1
    ensures r.Err? ==> (r.error == IntegrityViolation <==> !Consistent(s, PatchAll(t.rows, Where(where, map[]), UpdateData(obj), t.clock)))
    ensures r.Err? && r.error != IntegrityViolation ==> (r.error == NoResult <==> Count(t, where, map[]) == 0)
    ensures r.Err? ==> r.error in {IntegrityViolation, NoResult, MultipleResults}
    ensures r.Ok? ==> r.value.1.clock == t.clock + 1 && r.value.1.rows == PatchAll(t.rows, Where(where, map[]), UpdateData(obj), t.clock)
    ensures r.Ok? ==> Consistent(s, r.value.1.rows)
    ensures r.Ok? ==> forall i :: 0 <= i < |t.rows| && !Matches(Where(where, map[]), t.rows[i]) ==> r.value.1.rows[i] == t.rows[i]
    ensures r.Ok? ==> exists i :: 0 <= i < |t.rows| && Matches(Where(where, map[]), t.rows[i]) && r.value.1.rows[i] == r.value.0
                              && PatchedFrom(r.value.0, t.rows[i], UpdateData(obj), t.clock)
  {
    var data := UpdateData(obj);
    var c := Where(where, map[]);
    var rows' := PatchAll(t.rows, c, data, t.clock);
    var hits := Select(t.rows, c);
    if !Consistent(s, rows') then Err(IntegrityViolation)
    else if |hits| == 0 then Err(NoResult)
    else if |hits| > 1 then Err(MultipleResults)
    else
      assert hits[0] in hits;
      var i :| 0 <= i < |t.rows| && t.rows[i] == hits[0];
      Ok((rows'[i], Table(rows', t.clock + 1)))
  }

  // ---------------------------------------------------------------------
  // Delete and count
  // ---------------------------------------------------------------------

  /** `delete`: removes exactly the matching rows; no error when none match. */
  function Delete(t: Table, filter: seq<Cond>, filterBy: Row): (r: Table)
    ensures r.clock == t.clock
    ensures forall x :: x in r.rows <==> x in t.rows && !Matches(Where(filter, filterBy), x)
    ensures |r.rows| + Count(t, filter, filterBy) == |t.rows|
  {
    FilterSplit(t.rows, Where(filter, filterBy));
    Table(Filter(t.rows, Where(filter, filterBy), false), t.clock)
  }

  /** A delete keeps the surviving rows in table order. */
  lemma DeleteKeepsOrder(t: Table, filter: seq<Cond>, filterBy: Row)
    ensures Embeds(Delete(t, filter, filterBy).rows, t.rows)
  {
    FilterEmbeds(t.rows, Where(filter, filterBy), false);
  }

  /** `count`: the number of matching rows, 0 (never NULL) when none match. */
  function Count(t: Table, filter: seq<Cond>, filterBy: Row): (n: nat)
    ensures n <= |t.rows|
    ensures n == 0 <==> forall x :: x in t.rows ==> !Matches(Where(filter, filterBy), x)
  {
    var hits := Select(t.rows, Where(filter, filterBy));
    assert |hits| > 0 ==> hits[0] in hits;
    |hits|
  }

  /** `count_all_ilike`: the number of rows `get_all_ilike` would qualify,
      ignoring pagination. */
  function CountAllILike(t: Table, search: map<string, string>, filter: seq<Cond>, filterBy: Row): (n: nat)
    ensures n <= |t.rows|
    ensures n == 0 <==> forall x :: x in t.rows ==> !Matches(Criteria(filter, filterBy, search), x)
  {
    var hits := Select(t.rows, Criteria(filter, filterBy, search));
    assert |hits| > 0 ==> hits[0] in hits;
    |hits|
  }

  /** `count` is the number of table positions whose row matches. */
  lemma CountIsMatchCount(t: Table, filter: seq<Cond>, filterBy: Row)
    ensures Count(t, filter, filterBy) == MatchCount(t.rows, Where(filter, filterBy))
  {
    SelectCount(t.rows, Where(filter, filterBy));
  }

  /** `count_all_ilike` is the number of table positions whose row meets the
      filters and the search. */
  lemma CountAllILikeIsMatchCount(t: Table, search: map<string, string>, filter: seq<Cond>, filterBy: Row)
    ensures CountAllILike(t, search, filter, filterBy) == MatchCount(t.rows, Criteria(filter, filterBy, search))
  {
    SelectCount(t.rows, Criteria(filter, filterBy, search));
  }

  /** `count_subquery`: the number of rows the composed statement selects,
      0 when none. */
  function CountSubquery(t: Table, stmt: Stmt): (n: nat)
    ensures n == |Select(t.rows, stmt.where)|
    ensures n == 0 <==> forall x :: x in t.rows ==> !Matches(stmt.where, x)
  {
    var all := Run(t, stmt);
    var hits := Select(t.rows, stmt.where);
    assert |hits| > 0 ==> hits[0] in hits;
    |all|
  }
}

=== FILE: service.dfy ===
/** The generic service: existence checks, the translation of constraint
    violations into `ConflictException`, output shaping, and the commit
    boundary, over one repository table. */
module Service {
  import opened Outcomes
  import opened Values
  import opened Repository

  /** An output schema validated from a stored row keeps only the columns the
      schema declares (the service's fixed mapping from output role to shape
      stands in for the generic type-argument lookup). */
  function Project(row: Row, shape: set<string>): (out: Row)
    ensures forall f :: f in out <==> f in row && f in shape
    ensures forall f :: f in out ==> out[f] == row[f]
  {
    map f | f in row && f in shape :: row[f]
  }

  function ProjectAll(rows: seq<Row>, shape: set<string>): (r: seq<Row>)
    ensures |r| == |rows|
    ensures forall i :: 0 <= i < |rows| ==> r[i] == Project(rows[i], shape)
  {
    seq(|rows|, i requires 0 <= i < |rows| => Project(rows[i], shape))
  }

  /** The list output: the total count without pagination, the page, and
      `asc`, which keeps its schema default. */
  datatype ListOut = ListOut(count: nat, data: seq<Row>, asc: bool)

  const ListAscDefault: bool := true

  /** Some stored row carries the primary key `id`. */
  predicate HasId(t: Table, id: Value) {
    exists x :: x in t.rows && Get(x, IdField) == id
  }

  function ById(id: Value): Row {
    map[IdField := id]
  }

  /** `create`: insert and commit; a constraint violation becomes a conflict
      and nothing is committed. */
  function Create(s: TableSchema, shape: set<string>, t: Table, data: Input): (r: Result<Committed<Row, Table>>)
    ensures r.Err? <==> !Consistent(s, t.rows + [NewRow(s, t, CreateData(data))])
    ensures r.Err? ==> r.error == Conflict
    ensures r.Ok? ==> |r.value.state.rows| == |t.rows| + 1 && r.value.state.rows[..|t.rows|] == t.rows
    ensures r.Ok? ==> r.value.state.clock == t.clock + 1
    ensures r.Ok? ==> Consistent(s, r.value.state.rows)
    ensures r.Ok? ==> r.value.out == Project(r.value.state.rows[|t.rows|], shape)
    ensures r.Ok? ==> forall f :: f in CreateData(data) ==> Get(r.value.state.rows[|t.rows|], f) == CreateData(data)[f]
  {
    match Repository.Create(s, t, data)
    case Err(_) => Err(Conflict)
    case Ok((row, t')) =>
      assert t'.rows[..|t.rows|] == t.rows;
      Ok(Committed(Project(row, shape), t'))
  }

  /** `get_by_id`: the row with the key, shaped; `NotFound` when there is none. */
  function GetById(shape: set<string>, t: Table, id: Value): (r: Result<Row>)
    ensures r == Err(NotFound) <==> !HasId(t, id)
    ensures r.Ok? ==> exists x :: x in t.rows && Get(x, IdField) == id && r.value == Project(x, shape)
    ensures r.Err? && r.error != NotFound ==> r.error == MultipleResults
  {
    match GetOneOrNone(t, [], ById(id))
    case Ok(None) => Err(NotFound)
    case Ok(Some(x)) => Ok(Project(x, shape))
    case Err(e) => Err(e)
  }

  /** `get_all`: the page of the composed statement, shaped row by row in page
      order, with the count of every row the statement selects. An empty page
      is `NotFound`, also when the offset lies past a non-empty result. */
  function GetAll(shape: set<string>, t: Table, stmt: Stmt, limit: Option<int>, offset: Option<int>): (r: Result<ListOut>)
    ensures r.Err? ==> r.error in {InvalidPagination, NotFound}
    ensures (r.Err? && r.error == InvalidPagination) <==> Negative(offset) || Negative(limit)
    ensures r == Err(NotFound) <==> !Negative(offset) && !Negative(limit) && PageSize(|Select(t.rows, stmt.where)|, offset, limit) == 0
    ensures r.Ok? ==> r.value.count == |Select(t.rows, stmt.where)|
    ensures r.Ok? ==> |r.value.data| == PageSize(r.value.count, offset, limit)
    ensures r.Ok? ==> r.value.asc == ListAscDefault
  {
    var fetched := GetAllFromStmt(t, limit, offset, stmt);
    if fetched.Err? then Err(InvalidPagination)
    else if |fetched.value| == 0 then Err(NotFound)
    else
      Ok(ListOut(CountSubquery(t, stmt), ProjectAll(fetched.value, shape), ListAscDefault))
  }

  /** The listed items are the statement's rows from the page start on, in
      order, each projected to the output shape. */
  lemma GetAllInOrder(shape: set<string>, t: Table, stmt: Stmt, limit: Option<int>, offset: Option<int>)
    ensures var r := GetAll(shape, t, stmt, limit, offset);
            r.Ok? ==> var start := PageStart(r.value.count, offset);
                      forall i :: 0 <= i < |r.value.data| ==>
                        start + i < |Run(t, stmt)| && r.value.data[i] == Project(Run(t, stmt)[start + i], shape)
  {
    var r := GetAll(shape, t, stmt, limit, offset);
    if r.Ok? {
      var fetched := GetAllFetched(shape, t, stmt, limit, offset);
      var all, start := Run(t, stmt), PageStart(r.value.count, offset);
      ProjectedPage(shape, all, fetched, start);
      assert r.value.data == ProjectAll(fetched, shape);
    }
  }

  /** A successful list is the projection of the repository page. */
  lemma GetAllFetched(shape: set<string>, t: Table, stmt: Stmt, limit: Option<int>, offset: Option<int>) returns (page: seq<Row>)
    requires GetAll(shape, t, stmt, limit, offset).Ok?
    ensures GetAllFromStmt(t, limit, offset, stmt) == Ok(page)
    ensures GetAll(shape, t, stmt, limit, offset).value.data == ProjectAll(page, shape)
    ensures GetAll(shape, t, stmt, limit, offset).value.count == CountSubquery(t, stmt)
    ensures var start := PageStart(GetAll(shape, t, stmt, limit, offset).value.count, offset);
            start + |page| <= |Run(t, stmt)| && page == Run(t, stmt)[start..start + |page|]
  {
    page := GetAllFromStmt(t, limit, offset, stmt).value;
  }

  /** Projecting a slice of `all` projects the same positions of `all`. */
  lemma ProjectedPage(shape: set<string>, all: seq<Row>, page: seq<Row>, start: nat)
    requires start + |page| <= |all| && page == all[start..start + |page|]
    ensures forall i :: 0 <= i < |page| ==> start + i < |all| && ProjectAll(page, shape)[i] == Project(all[start + i], shape)
  {
    forall i | 0 <= i < |page|
      ensures ProjectAll(page, shape)[i] == Project(all[start + i], shape)
    {
      assert page[i] == all[start + i];
    }
  }

  /** `update`: existence check first, then the patch scoped to the key, then
      commit; a constraint violation becomes a conflict. */
  function Update(s: TableSchema, shape: set<string>, t: Table, id: Value, data: Input): (r: Result<Committed<Row, Table>>)
    ensures !HasId(t, id) ==> r == Err(NotFound)
    ensures r.Ok? ==> |r.value.state.rows| == |t.rows| && r.value.state.clock == t.clock + 1
    ensures r.Ok? ==> Consistent(s, r.value.state.rows)
    ensures r.Ok? ==> forall i :: 0 <= i < |t.rows| && Get(t.rows[i], IdField) != id ==> r.value.state.rows[i] == t.rows[i]
    ensures r.Ok? && IdField !in UpdateData(data) ==> forall i :: 0 <= i < |t.rows| ==> Get(r.value.state.rows[i], IdField) == Get(t.rows[i], IdField)
    ensures r.Ok? ==> exists i :: 0 <= i < |t.rows| && Get(t.rows[i], IdField) == id
                        && PatchedFrom(r.value.state.rows[i], t.rows[i], UpdateData(data), t.clock)
                        && r.value.out == Project(r.value.state.rows[i], shape)
    ensures r.Err? && r.error == Conflict ==> !Consistent(s, PatchAll(t.rows, Where([Eq(IdField, id)], map[]), UpdateData(data), t.clock))
  {
    var found := GetById(shape, t, id);
    if found.Err? then Err(found.error)
    else
      KeyedUpdate(s, t, id, data);
      var updated := Repository.Update(s, t, [Eq(IdField, id)], data);
      if updated.Err? then
        (if updated.error == IntegrityViolation then Err(Conflict) else Err(updated.error))
      else Ok(Committed(Project(updated.value.0, shape), updated.value.1))
  }

  /** The repository update scoped to `id == key`, restated in terms of keys. */
  lemma KeyedUpdate(s: TableSchema, t: Table, id: Value, data: Input)
    ensures var u := Repository.Update(s, t, [Eq(IdField, id)], data);
            u.Ok? ==>
              && |u.value.1.rows| == |t.rows| && u.value.1.clock == t.clock + 1
              && Consistent(s, u.value.1.rows)
              && (forall i :: 0 <= i < |t.rows| && Get(t.rows[i], IdField) != id ==> u.value.1.rows[i] == t.rows[i])
              && (IdField !in UpdateData(data) ==>
                    forall i :: 0 <= i < |t.rows| ==> Get(u.value.1.rows[i], IdField) == Get(t.rows[i], IdField))
              && exists i :: 0 <= i < |t.rows| && Get(t.rows[i], IdField) == id
                    && PatchedFrom(u.value.1.rows[i], t.rows[i], UpdateData(data), t.clock) && u.value.1.rows[i] == u.value.0
    ensures var u := Repository.Update(s, t, [Eq(IdField, id)], data);
            u.Err? && u.error == IntegrityViolation ==> !Consistent(s, PatchAll(t.rows, Where([Eq(IdField, id)], map[]), UpdateData(data), t.clock))
  {
    MatchesKey(id);
    var u := Repository.Update(s, t, [Eq(IdField, id)], data);
    if u.Ok? && IdField !in UpdateData(data) {
      var c := Where([Eq(IdField, id)], map[]);
      forall i | 0 <= i < |t.rows|
        ensures Get(u.value.1.rows[i], IdField) == Get(t.rows[i], IdField)
      {
        if Matches(c, t.rows[i]) {
          assert PatchedFrom(u.value.1.rows[i], t.rows[i], UpdateData(data), t.clock);
        }
      }
    }
  }

  /** `delete`: existence check, then delete by key, then commit. */
  function Delete(shape: set<string>, t: Table, id: Value): (r: Result<Table>)
    ensures !HasId(t, id) ==> r == Err(NotFound)
    ensures r.Err? ==> r.error in {NotFound, MultipleResults}
    ensures r.Ok? ==> r.value.clock == t.clock
    ensures r.Ok? ==> forall x :: x in r.value.rows <==> x in t.rows && Get(x, IdField) != id
    ensures r.Ok? ==> |r.value.rows| + Count(t, [], ById(id)) == |t.rows|
    ensures r.Ok? ==> Embeds(r.value.rows, t.rows)
  {
    var found := GetById(shape, t, id);
    if found.Err? then Err(found.error)
    else
      MatchesKey(id);
      DeleteKeepsOrder(t, [], ById(id));
      Ok(Repository.Delete(t, [], ById(id)))
  }

  // ---------------------------------------------------------------------
  // Properties across operations
  // ---------------------------------------------------------------------

  /** In a consistent table a lookup by key never meets two rows: it finds
      the row or fails with `NotFound`. */
  lemma GetByIdOnConsistent(s: TableSchema, shape: set<string>, t: Table, id: Value)
    requires Consistent(s, t.rows)
    ensures GetById(shape, t, id).Err? ==> GetById(shape, t, id).error == NotFound
    ensures HasId(t, id) ==> GetById(shape, t, id).Ok?
  {
    MatchesKey(id);
    PinnedSelectAtMostOne(s, t.rows, Where([], ById(id)), IdField, id);
  }

  /** On a consistent table every stored row is found by its own key, and
      read back shaped. */
  lemma GetByIdOfRow(s: TableSchema, shape: set<string>, t: Table, k: int)
    requires Consistent(s, t.rows)
    requires 0 <= k < |t.rows|
    ensures GetById(shape, t, Get(t.rows[k], IdField)) == Ok(Project(t.rows[k], shape))
  {
    var id := Get(t.rows[k], IdField);
    assert t.rows[k] in t.rows;
    GetByIdOnConsistent(s, shape, t, id);
    var r := GetById(shape, t, id);
    var x :| x in t.rows && Get(x, IdField) == id && r.value == Project(x, shape);
    var i :| 0 <= i < |t.rows| && t.rows[i] == x;
    if i != k {
      NoClashAt(s, t.rows, i, k);
    }
  }

  /** A created row can be read back by its key, and reads as the create
      returned it. */
  lemma CreateThenGetById(s: TableSchema, shape: set<string>, t: Table, data: Input)
    requires Consistent(s, t.rows)
    requires Create(s, shape, t, data).Ok?
    ensures var c := Create(s, shape, t, data).value;
            GetById(shape, c.state, Get(c.state.rows[|t.rows|], IdField)) == Ok(c.out)
  {
    var c := Create(s, shape, t, data).value;
    GetByIdOfRow(s, shape, c.state, |t.rows|);
  }

  /** After a delete, a lookup of the deleted key fails with `NotFound`. */
  lemma DeleteThenGetById(shape: set<string>, t: Table, id: Value)
    requires Delete(shape, t, id).Ok?
    ensures GetById(shape, Delete(shape, t, id).value, id) == Err(NotFound)
  {
  }

  /** On a consistent table and an existing key, `update` fails exactly when
      the patched table would break a constraint, and then with `Conflict`. */
  lemma UpdateOnConsistent(s: TableSchema, shape: set<string>, t: Table, id: Value, data: Input)
    requires Consistent(s, t.rows)
    requires HasId(t, id)
    ensures var r := Update(s, shape, t, id, data);
            && (r.Err? <==> !Consistent(s, PatchAll(t.rows, Where([Eq(IdField, id)], map[]), UpdateData(data), t.clock)))
            && (r.Err? ==> r.error == Conflict)
  {
    GetByIdOnConsistent(s, shape, t, id);
    MatchesKey(id);
    var crit := Where([Eq(IdField, id)], map[]);
    PinnedSelectAtMostOne(s, t.rows, crit, IdField, id);
    var x :| x in t.rows && Get(x, IdField) == id;
    assert Matches(crit, x);
    assert Count(t, [Eq(IdField, id)], map[]) == 1;
    var repo := Repository.Update(s, t, [Eq(IdField, id)], data);
    assert repo.Err? <==> !Consistent(s, PatchAll(t.rows, crit, UpdateData(data), t.clock));
    assert repo.Err? ==> repo.error == IntegrityViolation;
  }

  /** On a consistent table delete succeeds exactly for an existing id. */
  lemma DeleteOnConsistent(s: TableSchema, shape: set<string>, t: Table, id: Value)
    requires Consistent(s, t.rows)
    ensures Delete(shape, t, id).Ok? <==> HasId(t, id)
  {
    GetByIdOnConsistent(s, shape, t, id);
  }

  /** A delete keeps a consistent table consistent. */
  lemma DeleteKeepsConsistent(s: TableSchema, shape: set<string>, t: Table, id: Value)
    requires Consistent(s, t.rows)
    requires Delete(shape, t, id).Ok?
    ensures Consistent(s, Delete(shape, t, id).value.rows)
  {
    FilterKeepsConsistent(s, t.rows, Where([], ById(id)), false);
  }
}

=== FILE: sorting.dfy ===
/** `ORDER BY field [ASC|DESC]` over rows: a stable insertion sort whose
    result is proved to be an ordered permutation of its input. */
module Sorting {
  import opened Values

  /** `a` may come before `b` when ordering by `field` in the given direction. */
  predicate Before(a: Row, b: Row, field: string, ascending: bool) {
    if ascending then ValueLe(Get(a, field), Get(b, field))
    else ValueLe(Get(b, field), Get(a, field))
  }

  /** Every row may come before its successor. */
  predicate Sorted(rows: seq<Row>, field: string, ascending: bool) {
    forall i :: 0 <= i < |rows| - 1 ==> Before(rows[i], rows[i + 1], field, ascending)
  }

  lemma BeforeTotal(a: Row, b: Row, field: string, ascending: bool)
    ensures Before(a, b, field, ascending) || Before(b, a, field, ascending)
  {
    ValueLeTotal(Get(a, field), Get(b, field));
  }

  lemma BeforeTrans(a: Row, b: Row, c: Row, field: string, ascending: bool)
    requires Before(a, b, field, ascending) && Before(b, c, field, ascending)
    ensures Before(a, c, field, ascending)
  {
    if ascending {
      ValueLeTrans(Get(a, field), Get(b, field), Get(c, field));
    } else {
      ValueLeTrans(Get(c, field), Get(b, field), Get(a, field));
    }
  }

  /** In an ordered sequence every row may come before every later row. */
  lemma {:induction false} SortedPairwise(rows: seq<Row>, field: string, ascending: bool, i: int, j: int)
    requires Sorted(rows, field, ascending)
    requires 0 <= i < j < |rows|
    ensures Before(rows[i], rows[j], field, ascending)
    decreases j - i
  {
    if j > i + 1 {
      SortedPairwise(rows, field, ascending, i, j - 1);
      BeforeTrans(rows[i], rows[j - 1], rows[j], field, ascending);
    }
  }

  /** Cutting an ordered sequence after `k` rows keeps rows that may all come
      before every row it drops: the prefix is a top-`k` selection. */
  lemma PrefixFirst(rows: seq<Row>, field: string, ascending: bool, k: int)
    requires Sorted(rows, field, ascending)
    requires 0 <= k <= |rows|
    ensures multiset(rows) - multiset(rows[..k]) == multiset(rows[k..])
    ensures forall x, y :: x in rows[..k] && y in multiset(rows) - multiset(rows[..k]) ==> Before(x, y, field, ascending)
  {
    assert rows == rows[..k] + rows[k..];
    forall x, y | x in rows[..k] && y in multiset(rows[k..])
      ensures Before(x, y, field, ascending)
    {
      var i :| 0 <= i < k && rows[..k][i] == x;
      assert y in rows[k..];
      var j :| 0 <= j < |rows| - k && rows[k..][j] == y;
      SortedPairwise(rows, field, ascending, i, k + j);
    }
  }

  /** A row that may precede the head of an ordered sequence extends it. */
  lemma SortedCons(a: Row, s: seq<Row>, field: string, ascending: bool)
    requires Sorted(s, field, ascending)
    requires |s| == 0 || Before(a, s[0], field, ascending)
    ensures Sorted([a] + s, field, ascending)
  {
    var r := [a] + s;
    forall i | 0 <= i < |r| - 1
      ensures Before(r[i], r[i + 1], field, ascending)
    {
      if i > 0 {
        assert r[i] == s[i - 1] && r[i + 1] == s[i];
      }
    }
  }

  /** Puts `x` into a sequence before the first row it may precede. */
  function Insert(x: Row, s: seq<Row>, field: string, ascending: bool): (r: seq<Row>)
    ensures |r| == |s| + 1
    ensures multiset(r) == multiset(s) + multiset{x}
  {
    if |s| == 0 || Before(x, s[0], field, ascending) then [x] + s
    else
      var rest := Insert(x, s[1..], field, ascending);
      assert s == [s[0]] + s[1..];
      [s[0]] + rest
  }

  /** Inserting into an ordered sequence keeps it ordered. */
  lemma {:induction false} InsertSorted(x: Row, s: seq<Row>, field: string, ascending: bool)
    requires Sorted(s, field, ascending)
    ensures Sorted(Insert(x, s, field, ascending), field, ascending)
    ensures Insert(x, s, field, ascending)[0] == x || (|s| > 0 && Insert(x, s, field, ascending)[0] == s[0])
  {
    if |s| == 0 || Before(x, s[0], field, ascending) {
      SortedCons(x, s, field, ascending);
    } else {
      BeforeTotal(x, s[0], field, ascending);
      SortedSlice(s, field, ascending, 1, |s|);
      InsertSorted(x, s[1..], field, ascending);
      SortedCons(s[0], Insert(x, s[1..], field, ascending), field, ascending);
    }
  }

  /** The rows reordered by `field`: same rows, same multiplicities, in order. */
  function SortBy(rows: seq<Row>, field: string, ascending: bool): (r: seq<Row>)
    ensures Sorted(r, field, ascending)
    ensures multiset(r) == multiset(rows)
  {
    if |rows| == 0 then []
    else
      assert rows == [rows[0]] + rows[1..];
      InsertSorted(rows[0], SortBy(rows[1..], field, ascending), field, ascending);
      Insert(rows[0], SortBy(rows[1..], field, ascending), field, ascending)
  }

  /** A contiguous part of an ordered sequence is ordered. */
  lemma SortedSlice(rows: seq<Row>, field: string, ascending: bool, lo: int, hi: int)
    requires Sorted(rows, field, ascending)
    requires 0 <= lo <= hi <= |rows|
    ensures Sorted(rows[lo..hi], field, ascending)
  {
    var part := rows[lo..hi];
    forall i | 0 <= i < |part| - 1
      ensures Before(part[i], part[i + 1], field, ascending)
    {
      assert part[i] == rows[lo + i] && part[i + 1] == rows[lo + i + 1];
    }
  }

  /** Sequences with the same multiset have the same members. */
  lemma SameMembers(a: seq<Row>, b: seq<Row>)
    requires multiset(a) == multiset(b)
    ensures forall x :: x in a <==> x in b
  {
    forall x ensures x in a <==> x in b {
      assert x in a <==> x in multiset(a);
      assert x in b <==> x in multiset(b);
    }
  }

  lemma SortPreservesLength(rows: seq<Row>, field: string, ascending: bool)
    ensures |SortBy(rows, field, ascending)| == |rows|
  {
    assert |multiset(SortBy(rows, field, ascending))| == |multiset(rows)|;
  }
}

=== FILE: users.dfy ===
/** The User specialisation: the `users` table, the records the user service
    builds from its input schemas, its create and update, and the composer of
    the admin list query. Hashing is a parameter of every operation that
    needs it. */
module Users {
  import opened Outcomes
  import opened Values
  import opened Repository
  import opened Sorting
  import Service

  const EmailField: string := "email"
  const HashField: string := "hashed_password"
  const AdminField: string := "is_admin"

  /** `UserModel`: `is_admin` defaults to false, `email` is unique, and
      `email`, `hashed_password` and `is_admin` are NOT NULL. */
  const UserTable: TableSchema :=
    TableSchema(map[AdminField := Bool(false)], {EmailField}, {EmailField, HashField, AdminField})

  /** Columns of `UserGetSchema` and of `UserGetAdminSchema`. */
  const PublicShape: set<string> := {IdField, EmailField}
  const AdminShape: set<string> := {IdField, EmailField, AdminField}

  /** The password hash (SHA-256 hex digest in the source), left uninterpreted. */
  type Hasher = string -> string

  /** `UserCreateSchema` and `UserCreateAdminSchema`. */
  datatype UserCreate =
    | UserCreate(email: string, password: string)
    | UserCreateAdmin(email: string, password: string, isAdmin: bool)

  /** `UserUpdateSchema` (both fields optional) and `UserUpdateAdminSchema`
      (whose `is_admin` is required). */
  datatype UserUpdate =
    | UserUpdate(email: Option<string>, password: Option<string>)
    | UserUpdateAdmin(email: Option<string>, password: Option<string>, isAdmin: bool)

  function OptStr(o: Option<string>): Value {
    if o.Some? then Str(o.value) else Null
  }

  /** No output shape exposes the password hash. */
  lemma HashNeverExposed(row: Row)
    ensures HashField !in Service.Project(row, PublicShape)
    ensures HashField !in Service.Project(row, AdminShape)
    ensures PublicShape <= AdminShape
  {
  }

  // ---------------------------------------------------------------------
  // Records built by the service
  // ---------------------------------------------------------------------

  /** `UserCreateRepositorySchema(email=..., hashed_password=hash(password))`:
      both fields explicitly set; an admin's `is_admin` is not carried over. */
  function CreateRecord(data: UserCreate, hash: Hasher): (obj: Input)
    ensures CreateData(obj) == map[EmailField := Str(data.email), HashField := Str(hash(data.password))]
  {
    var obj := Schema(map[EmailField := Str(data.email), HashField := Str(hash(data.password))], {EmailField, HashField});
    assert CreateData(obj) == map[EmailField := Str(data.email), HashField := Str(hash(data.password))];
    obj
  }

  /** The new password hash an update writes, if any: Python's `if
      data.password:` skips both `None` and the empty string. */
  function NewHash(data: UserUpdate, hash: Hasher): Option<string> {
    if data.password.Some? && data.password.value != "" then Some(hash(data.password.value)) else None
  }

  /** `UserUpdateRepositoryAdminSchema(email=..., hashed_password=...,
      is_admin=...)`: all three fields explicitly set, `None` where nothing
      is to change; `is_admin` is `None` unless the input is the admin
      schema. */
  function UpdateRecord(data: UserUpdate, hash: Hasher): (obj: Input)
    ensures forall f :: f in UpdateData(obj) ==> f in {EmailField, HashField, AdminField}
    ensures EmailField in UpdateData(obj) <==> data.email.Some?
    ensures data.email.Some? ==> UpdateData(obj)[EmailField] == Str(data.email.value)
    ensures HashField in UpdateData(obj) <==> data.password.Some? && data.password.value != ""
    ensures HashField in UpdateData(obj) ==> UpdateData(obj)[HashField] == Str(hash(data.password.value))
    ensures AdminField in UpdateData(obj) <==> data.UserUpdateAdmin?
    ensures data.UserUpdateAdmin? ==> UpdateData(obj)[AdminField] == Bool(data.isAdmin)
  {
    var h := NewHash(data, hash);
    Schema(map[EmailField := OptStr(data.email),
               HashField := OptStr(h),
               AdminField := if data.UserUpdateAdmin? then Bool(data.isAdmin) else Null],
           {EmailField, HashField, AdminField})
  }

  // ---------------------------------------------------------------------
  // Invariants of the users table
  // ---------------------------------------------------------------------

  /** Some stored user has this email. */
  predicate EmailTaken(t: Table, email: string) {
    exists x :: x in t.rows && Get(x, EmailField) == Str(email)
  }

  /** Some stored user other than `id` has this email. */
  predicate EmailTakenByOther(t: Table, id: Value, email: string) {
    exists x :: x in t.rows && Get(x, IdField) != id && Get(x, EmailField) == Str(email)
  }

  /** No two users share an email. */
  predicate EmailsUnique(rows: seq<Row>) {
    forall i, j :: 0 <= i < j < |rows| ==> Get(rows[i], EmailField) != Get(rows[j], EmailField)
  }

  /** Every stored password is the image of some password under `hash`:
      no plaintext password is ever stored. */
  ghost predicate PasswordsHashed(rows: seq<Row>, hash: Hasher) {
    forall x :: x in rows ==> Hashed(x, hash)
  }

  ghost predicate Hashed(row: Row, hash: Hasher) {
    exists p :: Get(row, HashField) == Str(hash(p))
  }

  /** The store's constraints on `users` imply that emails are unique. */
  lemma ConsistentEmailsUnique(rows: seq<Row>)
    requires Consistent(UserTable, rows)
    ensures EmailsUnique(rows)
  {
    forall i, j | 0 <= i < j < |rows|
      ensures Get(rows[i], EmailField) != Get(rows[j], EmailField)
    {
      assert Complete(UserTable, rows[i]);
      assert !Clash(UserTable, rows[i], rows[j]);
    }
  }

  // ---------------------------------------------------------------------
  // Create
  // ---------------------------------------------------------------------

  /** The row an insert of `data` stores. */
  function NewUser(t: Table, data: UserCreate, hash: Hasher): Row {
    NewRow(UserTable, t, CreateData(CreateRecord(data, hash)))
  }

  /** The columns of the new user row: email, hash, `is_admin` from its
      default, both timestamps from the clock and a fresh id. */
  lemma NewUserFields(t: Table, data: UserCreate, hash: Hasher)
    ensures var row := NewUser(t, data, hash);
            && Get(row, EmailField) == Str(data.email)
            && Get(row, HashField) == Str(hash(data.password))
            && Get(row, AdminField) == Bool(false)
            && Get(row, CreatedField) == Int(t.clock) && Get(row, UpdatedField) == Int(t.clock)
            && Get(row, IdField) == FreshId(t.rows)
  {
  }

  /** On a consistent table, the new user row breaks a constraint exactly
      when its email is taken. */
  lemma {:induction false} CreateAdmission(t: Table, data: UserCreate, hash: Hasher)
    ensures Complete(UserTable, NewUser(t, data, hash))
    ensures Consistent(UserTable, t.rows) ==>
              (Consistent(UserTable, t.rows + [NewUser(t, data, hash)]) <==> !EmailTaken(t, data.email))
  {
    var row := NewUser(t, data, hash);
    assert Get(row, IdField) == FreshId(t.rows);
    assert Get(row, EmailField) == Str(data.email);
    assert Get(row, HashField) == Str(hash(data.password));
    assert Get(row, AdminField) == Bool(false);
    if Consistent(UserTable, t.rows) {
      AppendConsistent(UserTable, t.rows, row);
      forall x | x in t.rows
        ensures Clash(UserTable, x, row) <==> Get(x, EmailField) == Str(data.email)
      {
        if Get(x, EmailField) == Str(data.email) {
          assert EmailField in UserTable.unique && Get(x, EmailField) != Null && Get(x, EmailField) == Get(row, EmailField);
        }
      }
    }
  }

  /** `UserService.create`: hash the password, insert email and hash, commit;
      an integrity violation becomes `Conflict`. The stored `is_admin` is the
      column default whatever the input says. */
  function Create(t: Table, data: UserCreate, hash: Hasher): (r: Result<Committed<Row, Table>>)
    ensures r.Err? ==> r.error == Conflict
    ensures Consistent(UserTable, t.rows) ==> (r.Err? <==> EmailTaken(t, data.email))
    ensures r.Ok? ==> |r.value.state.rows| == |t.rows| + 1 && r.value.state.rows[..|t.rows|] == t.rows
    ensures r.Ok? ==> Consistent(UserTable, r.value.state.rows)
    ensures r.Ok? ==> var row := r.value.state.rows[|t.rows|];
                      && Get(row, EmailField) == Str(data.email)
                      && Get(row, HashField) == Str(hash(data.password))
                      && Get(row, AdminField) == Bool(false)
                      && Get(row, CreatedField) == Int(t.clock) && Get(row, UpdatedField) == Int(t.clock)
                      && (forall x :: x in t.rows ==> Get(x, IdField) != Get(row, IdField))
                      && r.value.out == Service.Project(row, AdminShape)
  {
    CreateAdmission(t, data, hash);
    NewUserFields(t, data, hash);
    var r := Service.Create(UserTable, AdminShape, t, CreateRecord(data, hash));
    if r.Ok? then
      assert r.value.state.rows == t.rows + [NewUser(t, data, hash)];
      r
    else r
  }

  /** An admin creating an administrator gets a non-admin user. */
  lemma AdminCreateStoresNoAdmin(t: Table, email: string, password: string, hash: Hasher)
    requires Create(t, UserCreateAdmin(email, password, true), hash).Ok?
    ensures var c := Create(t, UserCreateAdmin(email, password, true), hash).value;
            c.out[AdminField] == Bool(false)
  {
  }

  lemma CreateKeepsPasswordsHashed(t: Table, data: UserCreate, hash: Hasher)
    requires PasswordsHashed(t.rows, hash)
    requires Create(t, data, hash).Ok?
    ensures PasswordsHashed(Create(t, data, hash).value.state.rows, hash)
  {
    var rows' := Create(t, data, hash).value.state.rows;
    forall x | x in rows'
      ensures Hashed(x, hash)
    {
      var i :| 0 <= i < |rows'| && rows'[i] == x;
      if i < |t.rows| {
        assert x == t.rows[i];
        assert x in t.rows;
      } else {
        assert Get(x, HashField) == Str(hash(data.password));
      }
    }
  }

  // ---------------------------------------------------------------------
  // Update
  // ---------------------------------------------------------------------

  /** `row'` is the user `row` after the update `data` at time `clock`. */
  predicate UserPatched(row': Row, row: Row, data: UserUpdate, hash: Hasher, clock: nat) {
    && Get(row', IdField) == Get(row, IdField)
    && Get(row', CreatedField) == Get(row, CreatedField)
    && Get(row', UpdatedField) == Int(clock)
    && Get(row', EmailField) == (if data.email.Some? then Str(data.email.value) else Get(row, EmailField))
    && Get(row', HashField) == (if NewHash(data, hash).Some? then Str(NewHash(data, hash).value) else Get(row, HashField))
    && Get(row', AdminField) == (if data.UserUpdateAdmin? then Bool(data.isAdmin) else Get(row, AdminField))
  }

  lemma PatchIsUserPatch(row': Row, row: Row, data: UserUpdate, hash: Hasher, clock: nat)
    requires PatchedFrom(row', row, UpdateData(UpdateRecord(data, hash)), clock)
    ensures UserPatched(row', row, data, hash, clock)
  {
    var d := UpdateData(UpdateRecord(data, hash));
    assert Get(row', IdField) == Get(row, IdField);
    assert Get(row', CreatedField) == Get(row, CreatedField);
    assert Get(row', UpdatedField) == Int(clock);
    assert Get(row', EmailField) == (if EmailField in d then d[EmailField] else Get(row, EmailField));
    assert Get(row', HashField) == (if HashField in d then d[HashField] else Get(row, HashField));
    assert Get(row', AdminField) == (if AdminField in d then d[AdminField] else Get(row, AdminField));
  }

  /** The criterion the update is scoped to. */
  function ByKey(id: Value): Criteria {
    Where([Eq(IdField, id)], map[])
  }

  /** In a consistent table the key `id` sits at exactly one position. */
  lemma KeyPosition(t: Table, id: Value) returns (k: int)
    requires Consistent(UserTable, t.rows)
    requires Service.HasId(t, id)
    ensures 0 <= k < |t.rows| && Get(t.rows[k], IdField) == id
    ensures forall j :: 0 <= j < |t.rows| && j != k ==> Get(t.rows[j], IdField) != id
  {
    var x :| x in t.rows && Get(x, IdField) == id;
    k :| 0 <= k < |t.rows| && t.rows[k] == x;
    forall j | 0 <= j < |t.rows| && j != k
      ensures Get(t.rows[j], IdField) != id
    {
      NoClashAt(UserTable, t.rows, j, k);
    }
  }

  /** An update keeps a stored user complete. */
  lemma PatchedUserComplete(row': Row, row: Row, data: UserUpdate, hash: Hasher, clock: nat)
    requires Complete(UserTable, row)
    requires UserPatched(row', row, data, hash, clock)
    ensures Complete(UserTable, row')
  {
    assert Get(row, EmailField) != Null && Get(row, HashField) != Null && Get(row, AdminField) != Null;
  }

  /** The patched user clashes with another stored user exactly when it takes
      that user's email. */
  lemma PatchedUserClash(t: Table, k: int, j: int, p: Row, data: UserUpdate, hash: Hasher)
    requires Consistent(UserTable, t.rows)
    requires 0 <= k < |t.rows| && 0 <= j < |t.rows| && j != k
    requires UserPatched(p, t.rows[k], data, hash, t.clock)
    ensures Clash(UserTable, t.rows[j], p) <==> data.email.Some? && Get(t.rows[j], EmailField) == Str(data.email.value)
  {
    NoClashAt(UserTable, t.rows, j, k);
    if data.email.Some? && Get(t.rows[j], EmailField) == Str(data.email.value) {
      assert Get(t.rows[j], EmailField) != Null && Get(t.rows[j], EmailField) == Get(p, EmailField);
    }
  }

  /** On a consistent table holding `id`, the patched table is consistent
      exactly when the update does not give the user an email another user
      already has. */
  lemma PatchAdmission(t: Table, id: Value, data: UserUpdate, hash: Hasher)
    requires Consistent(UserTable, t.rows)
    requires Service.HasId(t, id)
    ensures Consistent(UserTable, PatchAll(t.rows, ByKey(id), UpdateData(UpdateRecord(data, hash)), t.clock))
            <==> !(data.email.Some? && EmailTakenByOther(t, id, data.email.value))
  {
    MatchesKey(id);
    var d := UpdateData(UpdateRecord(data, hash));
    var patched := PatchAll(t.rows, ByKey(id), d, t.clock);
    var k := KeyPosition(t, id);
    var p := patched[k];
    assert patched == t.rows[k := p];
    ReplaceConsistent(UserTable, t.rows, k, p);
    PatchIsUserPatch(p, t.rows[k], data, hash, t.clock);
    PatchedUserComplete(p, t.rows[k], data, hash, t.clock);
    var clashFree := forall j :: 0 <= j < |t.rows| && j != k ==> !Clash(UserTable, t.rows[j], p);
    if data.email.Some? && EmailTakenByOther(t, id, data.email.value) {
      var y :| y in t.rows && Get(y, IdField) != id && Get(y, EmailField) == Str(data.email.value);
      var j :| 0 <= j < |t.rows| && t.rows[j] == y;
      PatchedUserClash(t, k, j, p, data, hash);
    }
    if !clashFree {
      var j :| 0 <= j < |t.rows| && j != k && Clash(UserTable, t.rows[j], p);
      PatchedUserClash(t, k, j, p, data, hash);
      assert t.rows[j] in t.rows;
    }
  }

  /** `UserService.update`: existence check, then a patch of the user's email,
      password hash and (admin input only) `is_admin`, then commit; an
      integrity violation becomes `Conflict`. */
  function Update(t: Table, id: Value, data: UserUpdate, hash: Hasher): (r: Result<Committed<Row, Table>>)
    ensures !Service.HasId(t, id) ==> r == Err(NotFound)
    ensures r.Ok? ==> |r.value.state.rows| == |t.rows| && Consistent(UserTable, r.value.state.rows)
    ensures r.Ok? ==> forall i :: 0 <= i < |t.rows| ==> Get(r.value.state.rows[i], IdField) == Get(t.rows[i], IdField)
    ensures r.Ok? ==> forall i :: 0 <= i < |t.rows| && Get(t.rows[i], IdField) != id ==> r.value.state.rows[i] == t.rows[i]
    ensures r.Ok? ==> exists i :: 0 <= i < |t.rows| && Get(t.rows[i], IdField) == id
                        && UserPatched(r.value.state.rows[i], t.rows[i], data, hash, t.clock)
                        && r.value.out == Service.Project(r.value.state.rows[i], AdminShape)
  {
    UpdatePatchesUser(t, id, data, hash);
    Service.Update(UserTable, AdminShape, t, id, UpdateRecord(data, hash))
  }

  lemma UpdatePatchesUser(t: Table, id: Value, data: UserUpdate, hash: Hasher)
    ensures var r := Service.Update(UserTable, AdminShape, t, id, UpdateRecord(data, hash));
            r.Ok? ==> exists i :: 0 <= i < |t.rows| && Get(t.rows[i], IdField) == id
                        && UserPatched(r.value.state.rows[i], t.rows[i], data, hash, t.clock)
                        && r.value.out == Service.Project(r.value.state.rows[i], AdminShape)
  {
    var r := Service.Update(UserTable, AdminShape, t, id, UpdateRecord(data, hash));
    if r.Ok? {
      var i :| 0 <= i < |t.rows| && Get(t.rows[i], IdField) == id
               && PatchedFrom(r.value.state.rows[i], t.rows[i], UpdateData(UpdateRecord(data, hash)), t.clock)
               && r.value.out == Service.Project(r.value.state.rows[i], AdminShape);
      PatchIsUserPatch(r.value.state.rows[i], t.rows[i], data, hash, t.clock);
    }
  }

  /** On a consistent table holding `id`, an update fails exactly when it
      would give the user another user's email, and then with `Conflict`. */
  lemma UpdateConflictIff(t: Table, id: Value, data: UserUpdate, hash: Hasher)
    requires Consistent(UserTable, t.rows)
    requires Service.HasId(t, id)
    ensures Update(t, id, data, hash).Err? <==> data.email.Some? && EmailTakenByOther(t, id, data.email.value)
    ensures Update(t, id, data, hash).Err? ==> Update(t, id, data, hash).error == Conflict
  {
    Service.UpdateOnConsistent(UserTable, AdminShape, t, id, UpdateRecord(data, hash));
    PatchAdmission(t, id, data, hash);
  }

  lemma UpdateKeepsPasswordsHashed(t: Table, id: Value, data: UserUpdate, hash: Hasher)
    requires Consistent(UserTable, t.rows)
    requires PasswordsHashed(t.rows, hash)
    requires Update(t, id, data, hash).Ok?
    ensures PasswordsHashed(Update(t, id, data, hash).value.state.rows, hash)
  {
    var r := Update(t, id, data, hash);
    var rows' := r.value.state.rows;
    var k :| 0 <= k < |t.rows| && Get(t.rows[k], IdField) == id && UserPatched(rows'[k], t.rows[k], data, hash, t.clock);
    forall i | 0 <= i < |rows'|
      ensures Hashed(rows'[i], hash)
    {
      assert t.rows[i] in t.rows;
      if i == k {
        if NewHash(data, hash).Some? {
          assert Get(rows'[i], HashField) == Str(hash(data.password.value));
        }
      } else {
        NoClashAt(UserTable, t.rows, i, k);
      }
    }
  }

  // ---------------------------------------------------------------------
  // Admin list query
  // ---------------------------------------------------------------------

  /** `UsersQuerySchema` after validation; `id` is a primary key value. */
  datatype UsersQuery = UsersQuery(offset: Option<int>, limit: Option<int>, id: Option<int>,
                                   email: Option<string>, isAdmin: Option<bool>, asc: bool)

  /** The query an empty parameter set yields: offset 0, limit 100, no
      filters, newest first. */
  const DefaultUsersQuery: UsersQuery := UsersQuery(Some(DefaultOffset), Some(DefaultLimit), None, None, None, false)

  /** The schema's fields; any other parameter is rejected. */
  const QueryKeys: set<string> := {"offset", "limit", "id", "email", "is_admin", "asc"}

  /** A parameter value of the type its field declares: `asc` is a plain
      bool, the others may also be null. */
  predicate ParamOk(key: string, v: Value) {
    if key == "asc" then v.Bool?
    else if key == "email" then v.Null? || v.Str?
    else if key == "is_admin" then v.Null? || v.Bool?
    else v.Null? || v.Int?
  }

  function OptInt(o: Option<int>): Value {
    if o.Some? then Int(o.value) else Null
  }

  function OptBool(o: Option<bool>): Value {
    if o.Some? then Bool(o.value) else Null
  }

  function IntParam(params: map<string, Value>, key: string, default: Option<int>): Option<int> {
    if key !in params then default else if params[key].Int? then Some(params[key].i) else None
  }

  function StrParam(params: map<string, Value>, key: string): Option<string> {
    if key in params && params[key].Str? then Some(params[key].s) else None
  }

  function BoolParam(params: map<string, Value>, key: string): Option<bool> {
    if key in params && params[key].Bool? then Some(params[key].b) else None
  }

  /** Validation of the query parameters against `UsersQuerySchema`: unknown
      keys and ill-typed values are rejected, absent fields take their
      defaults, and every given value is kept. */
  function ParseUsersQuery(params: map<string, Value>): (r: Result<UsersQuery>)
    ensures r.Ok? <==> params.Keys <= QueryKeys && forall k :: k in params ==> ParamOk(k, params[k])
    ensures r.Err? ==> r.error == InvalidQuery
    ensures r.Ok? ==> ("offset" in params ==> params["offset"] == OptInt(r.value.offset))
                      && ("offset" !in params ==> r.value.offset == Some(DefaultOffset))
    ensures r.Ok? ==> ("limit" in params ==> params["limit"] == OptInt(r.value.limit))
                      && ("limit" !in params ==> r.value.limit == Some(DefaultLimit))
    ensures r.Ok? ==> ("id" in params ==> params["id"] == OptInt(r.value.id)) && ("id" !in params ==> r.value.id == None)
    ensures r.Ok? ==> ("email" in params ==> params["email"] == OptStr(r.value.email)) && ("email" !in params ==> r.value.email == None)
    ensures r.Ok? ==> ("is_admin" in params ==> params["is_admin"] == OptBool(r.value.isAdmin))
                      && ("is_admin" !in params ==> r.value.isAdmin == None)
    ensures r.Ok? ==> ("asc" in params ==> params["asc"] == Bool(r.value.asc)) && ("asc" !in params ==> !r.value.asc)
  {
    if !(params.Keys <= QueryKeys) then Err(InvalidQuery)
    else if !(forall k :: k in params ==> ParamOk(k, params[k])) then Err(InvalidQuery)
    else
      assert "offset" in params ==> ParamOk("offset", params["offset"]);
      assert "limit" in params ==> ParamOk("limit", params["limit"]);
      assert "id" in params ==> ParamOk("id", params["id"]);
      assert "email" in params ==> ParamOk("email", params["email"]);
      assert "is_admin" in params ==> ParamOk("is_admin", params["is_admin"]);
      assert "asc" in params ==> ParamOk("asc", params["asc"]);
      Ok(UsersQuery(IntParam(params, "offset", Some(DefaultOffset)), IntParam(params, "limit", Some(DefaultLimit)),
                    IntParam(params, "id", None), StrParam(params, "email"), BoolParam(params, "is_admin"),
                    "asc" in params && params["asc"].b))
  }

  /** The parameters that spell out a query in full. */
  function QueryParams(q: UsersQuery): map<string, Value> {
    map["offset" := OptInt(q.offset), "limit" := OptInt(q.limit), "id" := OptInt(q.id),
        "email" := OptStr(q.email), "is_admin" := OptBool(q.isAdmin), "asc" := Bool(q.asc)]
  }

  /** No parameters give the defaults. */
  lemma ParseEmptyIsDefault()
    ensures ParseUsersQuery(map[]) == Ok(DefaultUsersQuery)
  {
  }

  /** Parsing a query's own parameters gives the query back. */
  lemma ParseQueryParams(q: UsersQuery)
    ensures ParseUsersQuery(QueryParams(q)) == Ok(q)
  {
    var r := ParseUsersQuery(QueryParams(q));
    assert r.Ok?;
  }

  /** The reference meaning of the list filters: a non-empty `email`
      occurs case-insensitively in the user's email, and a given `is_admin`
      equals the user's flag; an absent or empty email and an absent flag
      do not filter. */
  ghost predicate UserSelected(q: UsersQuery, x: Row) {
    && (q.email.None? || q.email.value == ""
        || (Get(x, EmailField).Str? && exists k :: OccursAt(LowerAll(Get(x, EmailField).s), LowerAll(q.email.value), k)))
    && (q.isAdmin.None? || Get(x, AdminField) == Bool(q.isAdmin.value))
  }

  /** The selected users in table order. */
  ghost function SelectedUsers(rows: seq<Row>, q: UsersQuery): seq<Row> {
    if |rows| == 0 then []
    else (if UserSelected(q, rows[0]) then [rows[0]] else []) + SelectedUsers(rows[1..], q)
  }

  /** `get_stmt_by_query`: `email ILIKE '%email%'` when the email is
      non-empty, `is_admin IS flag` when a flag is given, and `ORDER BY
      created_at`, descending unless `asc`. Neither `id` nor the paging
      fields are applied. */
  function UsersStmt(q: UsersQuery): (stmt: Stmt)
    ensures stmt.order == Some(Order(CreatedField, q.asc))
    ensures forall x :: Matches(stmt.where, x) <==> UserSelected(q, x)
  {
    var byEmail := if q.email.Some? && q.email.value != "" then [ILike(EmailField, q.email.value)] else [];
    var byAdmin := if q.isAdmin.Some? then [IsBool(AdminField, q.isAdmin.value)] else [];
    UsersWhere(q, byEmail, byAdmin);
    Stmt(Where(byEmail + byAdmin, map[]), Some(Order(CreatedField, q.asc)))
  }

  lemma UsersWhere(q: UsersQuery, byEmail: seq<Cond>, byAdmin: seq<Cond>)
    requires byEmail == if q.email.Some? && q.email.value != "" then [ILike(EmailField, q.email.value)] else []
    requires byAdmin == if q.isAdmin.Some? then [IsBool(AdminField, q.isAdmin.value)] else []
    ensures forall x :: Matches(Where(byEmail + byAdmin, map[]), x) <==> UserSelected(q, x)
  {
    if q.isAdmin.Some? {
      MatchesWithExtraCond(IsBool(AdminField, q.isAdmin.value), [], map[]);
    }
    if q.email.Some? {
      MatchesWithExtraCond(ILike(EmailField, q.email.value), byAdmin, map[]);
    }
    forall x
      ensures Matches(Where(byEmail + byAdmin, map[]), x) <==> UserSelected(q, x)
    {
      var adminOk := q.isAdmin.None? || Get(x, AdminField) == Bool(q.isAdmin.value);
      assert Matches(Where(byAdmin, map[]), x) <==> adminOk by {
        if q.isAdmin.Some? {
          assert byAdmin == [IsBool(AdminField, q.isAdmin.value)] + [];
        }
      }
      if q.email.Some? && q.email.value != "" {
        assert byEmail + byAdmin == [ILike(EmailField, q.email.value)] + byAdmin;
        if Get(x, EmailField).Str? {
          ContainsIffOccurs(LowerAll(Get(x, EmailField).s), LowerAll(q.email.value));
        }
      } else {
        assert byEmail + byAdmin == byAdmin;
      }
    }
  }

  /** The composed statement selects exactly the reference selection. */
  lemma {:induction false} UsersStmtSelects(rows: seq<Row>, q: UsersQuery)
    ensures Select(rows, UsersStmt(q).where) == SelectedUsers(rows, q)
  {
    if |rows| > 0 {
      UsersStmtSelects(rows[1..], q);
    }
  }

  /** Without an email or `is_admin` filter every user is listed. */
  lemma {:induction false} NoFiltersSelectAll(rows: seq<Row>, q: UsersQuery)
    requires q.email.None? || q.email.value == ""
    requires q.isAdmin.None?
    ensures SelectedUsers(rows, q) == rows
  {
    if |rows| > 0 {
      NoFiltersSelectAll(rows[1..], q);
      assert rows == [rows[0]] + rows[1..];
    }
  }

  /** The composer ignores the query's `id` and paging fields. */
  lemma UsersStmtIgnoresIdAndPaging(q: UsersQuery, id: Option<int>, offset: Option<int>, limit: Option<int>)
    ensures UsersStmt(q.(id := id, offset := offset, limit := limit)) == UsersStmt(q)
  {
  }

  /** `UserService.get_all` (the generic `get_all` with the users composer):
      the page of the selected users in `created_at` order, projected to the
      admin shape, with the unpaginated count. */
  function GetAll(t: Table, q: UsersQuery): (r: Result<Service.ListOut>)
    ensures r.Err? ==> r.error in {InvalidPagination, NotFound}
    ensures (r.Err? && r.error == InvalidPagination) <==> Negative(q.offset) || Negative(q.limit)
    ensures r == Err(NotFound) <==>
              !Negative(q.offset) && !Negative(q.limit) && PageSize(|SelectedUsers(t.rows, q)|, q.offset, q.limit) == 0
    ensures r.Ok? ==> r.value.count == |SelectedUsers(t.rows, q)|
    ensures r.Ok? ==> |r.value.data| == PageSize(r.value.count, q.offset, q.limit)
    ensures multiset(Run(t, UsersStmt(q))) == multiset(SelectedUsers(t.rows, q))
    ensures Sorted(Run(t, UsersStmt(q)), CreatedField, q.asc)
    ensures r.Ok? ==> var start := PageStart(r.value.count, q.offset);
                      forall i :: 0 <= i < |r.value.data| ==>
                        start + i < |Run(t, UsersStmt(q))| && r.value.data[i] == Service.Project(Run(t, UsersStmt(q))[start + i], AdminShape)
  {
    UsersStmtSelects(t.rows, q);
    RunPermutes(t, UsersStmt(q));
    RunSorted(t, UsersStmt(q));
    Service.GetAllInOrder(AdminShape, t, UsersStmt(q), q.limit, q.offset);
    Service.GetAll(AdminShape, t, UsersStmt(q), q.limit, q.offset)
  }
}

=== FILE: values.dfy ===
/** Column values, rows, the case-insensitive substring match behind
    `ilike('%v%')`, and the order `ORDER BY` uses. */
module Values {

  /** A column value as the store sees it; `Null` is SQL NULL. */
  datatype Value = Null | Bool(b: bool) | Int(i: int) | Str(s: string)

  /** A row maps column names to values; a column the row lacks reads as NULL. */
  type Row = map<string, Value>

  function Get(row: Row, field: string): Value {
    if field in row then row[field] else Null
  }

  // ---------------------------------------------------------------------
  // Case-insensitive substring search (ASCII case folding)
  // ---------------------------------------------------------------------

  function Lower(c: char): char {
    if 'A' <= c <= 'Z' then (c as int + 32) as char else c
  }

  function LowerAll(s: string): (r: string)
    ensures |r| == |s|
    ensures forall i :: 0 <= i < |s| ==> r[i] == Lower(s[i])
  {
    if s == [] then [] else [Lower(s[0])] + LowerAll(s[1..])
  }

  predicate IsPrefix(p: string, s: string) {
    |p| <= |s| && s[..|p|] == p
  }

  /** `sub` occurs in `s`: it is a prefix of `s` or occurs in its tail. */
  predicate Contains(s: string, sub: string)
    decreases |s|
  {
    IsPrefix(sub, s) || (|s| > 0 && Contains(s[1..], sub))
  }

  /** Reference definition of substring occurrence: some window of `s`
      equals `sub`. */
  ghost predicate OccursAt(s: string, sub: string, k: int) {
    0 <= k && k + |sub| <= |s| && s[k..k + |sub|] == sub
  }

  /** `Contains` agrees with the window definition, in both directions. */
  lemma {:induction false} ContainsIffOccurs(s: string, sub: string)
    ensures Contains(s, sub) <==> exists k :: OccursAt(s, sub, k)
    decreases |s|
  {
    if IsPrefix(sub, s) {
      assert OccursAt(s, sub, 0);
    } else if |s| == 0 {
    } else {
      ContainsIffOccurs(s[1..], sub);
      if Contains(s[1..], sub) {
        var k :| OccursAt(s[1..], sub, k);
        assert s[k + 1..k + 1 + |sub|] == s[1..][k..k + |sub|];
        assert OccursAt(s, sub, k + 1);
      }
      if k :| OccursAt(s, sub, k) {
        assert s[1..][k - 1..k - 1 + |sub|] == s[k..k + |sub|];
        assert OccursAt(s[1..], sub, k - 1);
      }
    }
  }

  /** `ilike('%sub%')` on a non-null text column: case-insensitive occurrence. */
  predicate ContainsInsensitive(s: string, sub: string) {
    Contains(LowerAll(s), LowerAll(sub))
  }

  // ---------------------------------------------------------------------
  // Sort order
  // ---------------------------------------------------------------------

  /** Values of different kinds order by kind; NULL sorts after everything,
      as PostgreSQL places NULLs last in ascending order. */
  function Rank(v: Value): nat {
    match v
    case Bool(_) => 0
    case Int(_) => 1
    case Str(_) => 2
    case Null => 3
  }

  /** Lexicographic order on strings. */
  predicate StrLe(a: string, b: string) {
    |a| == 0 || (|b| > 0 && (a[0] < b[0] || (a[0] == b[0] && StrLe(a[1..], b[1..]))))
  }

  predicate ValueLe(a: Value, b: Value) {
    if Rank(a) != Rank(b) then Rank(a) < Rank(b)
    else match (a, b)
      case (Bool(x), Bool(y)) => !x || y
      case (Int(x), Int(y)) => x <= y
      case (Str(x), Str(y)) => StrLe(x, y)
      case _ => true
  }

  lemma {:induction false} StrLeTotal(a: string, b: string)
    ensures StrLe(a, b) || StrLe(b, a)
    decreases |a|
  {
    if |a| > 0 && |b| > 0 && a[0] == b[0] {
      StrLeTotal(a[1..], b[1..]);
    }
  }

  lemma {:induction false} StrLeTrans(a: string, b: string, c: string)
    requires StrLe(a, b) && StrLe(b, c)
    ensures StrLe(a, c)
    decreases |a|
  {
    if |a| > 0 && a[0] == b[0] && b[0] == c[0] {
      StrLeTrans(a[1..], b[1..], c[1..]);
    }
  }

  /** The column order is transitive, so an ordered result is ordered
      between any two positions and not only between neighbours. */
  lemma ValueLeTrans(a: Value, b: Value, c: Value)
    requires ValueLe(a, b) && ValueLe(b, c)
    ensures ValueLe(a, c)
  {
    if a.Str? && b.Str? && c.Str? {
      StrLeTrans(a.s, b.s, c.s);
    }
  }

  /** Any two values are comparable, so sorting by a column is well defined. */
  lemma ValueLeTotal(a: Value, b: Value)
    ensures ValueLe(a, b) || ValueLe(b, a)
  {
    if a.Str? && b.Str? {
      StrLeTotal(a.s, b.s);
    }
  }
}
